=== FILE: README.md ===
# romanesgo escape-time core, modelled in Dafny

romanesgo renders escape-time fractals (the mandelbrot set, julia sets and the burning
ship) to an image. A fractal name and a colour-scheme name are resolved to a *point
function*: it maps a point of the complex plane and an iteration cap to a colour. A
*generator* maps every pixel to the plane, supersamples it on a centred grid of
sub-pixel offsets, averages the samples, and splits the pixels among worker goroutines
by a strided partition.

The repository carries two generations of this core. The `lib` package is the current
one. The root package (`Fractals.go`, `Generator.go`, `Complex.go`) is the older one.
The model is one engine, and both generations are stated against it:

- `ComplexNumbers` (complex.dfy): the `complex` type of both generations over exact
  `real`. `abs() <= r` is the squared test `re² + im² <= r²`, and `AbsComparison`
  shows that this agrees with the square root the source takes.
- `Escape` (escape.dfy): the three escape-time loops as one recursive loop `Iterate`,
  selected by a `Kind` tag.
  - mandelbrot and julia step z ← z·z + c; the burning ship folds z into the first
    quadrant before squaring.
  - The bailout radius is 2, except 10 for the burning ship.
  - The julia loop tests the successor z·z + c instead of z.
- `Colors` (colors.dfy): the linear greyscale and the parity ("whacky") black/white
  schemes, each with its burning-ship variant. `Paint` dispatches on the scheme.
- `Registry` (registry.dfy): the lib registry.
  - Fractal names are lower-cased and searched in a list.
  - Colour-scheme names are compared case-insensitively; the first match wins.
  - Errors come in a fixed order: unknown fractal, then wrong constant count, then
    unknown colour.
  - `Describe` is the help text of `Fractal.String`.
- `RootRegistry` (rootregistry.dfy): the root registry. It uses exact map keys,
  including the `"default"` colour key, and the same error order. The program exits on
  an error; the model returns the error value instead.
- `Generator` (generator.dfy): the scale (the smaller image dimension), `pixToCoord`,
  the sub-pixel offsets and supersample averaging.
  - The lib sums the samples and divides once.
  - The root package divides each sample by samples² as it adds it.
  - `RootAccumulateMatchesLib` proves the two accumulations equal.
  - `getNewFractGen` and the root `pixToCoord` compute the same scale and the same map
    as the lib's, so they share `NewGenerator` and `PixToCoord`.
- `Partition` (partition.dfy): worker `rno` visits `rno, rno + routines, …` below
  `width·height`. This is a pure function of the worker index. The shares are
  disjoint, and together they cover every pixel exactly once.
- `ImageColor` (imagecolor.dfy): the bytes a pixel is stored as. Each averaged channel
  goes through Go's `uint8` conversion into a `color.RGBA`. `image.NRGBA.Set` then
  un-premultiplies it by its alpha, following the standard library's
  `color.NRGBAModel`, with `uint32` channels scaled to 16 bits.
- `Render` (render.dfy): the image buffer as a sequence of byte colours, written by the
  workers one after another. Their shares are disjoint, so the order does not matter.
  - The finished image gives every pixel its stored colour. For the modelled schemes
    and a positive cap this is the truncated average, opaque
    (`ResolvedSchemeStoresTruncatedAverage`).
  - It does not depend on the number of workers, as long as there is at least one.
- Helpers: `Wrappers` (Option, Result), `Search` (first match in a list), `Text`
  (ASCII lower-casing and `strings.Join`), `GoInt` (Go's truncating `/` and `%`), `IntArith`
  (row-major index decomposition and other integer facts) and `RealArith` (the
  nonlinear real facts the proofs need).

The lib table lists `simpleGreyscaleShip` twice for the burning ship. The second entry
can never be selected, because the first match wins. `LibFractals` keeps both entries.

## Model

| member | source | states |
|---|---|---|
| `ComplexNumbers.AbsSq` | lib/complex.go:12-14 | the radicand re² + im² of `abs` is never negative, so the square root is always defined |
| `ComplexNumbers.Add` | lib/complex.go:16-20 | componentwise sum; `AddSubInverse` proves that `sub` undoes it and `AddCommutative` that it commutes with (0, 0) as identity |
| `ComplexNumbers.Sub` | lib/complex.go:22-26 | componentwise difference; `AddSubInverse` proves that `add` undoes it |
| `ComplexNumbers.Mul` | lib/complex.go:34-38 | the complex product; `MulCommutative` proves it commutes and `AbsSqMul` that it multiplies squared magnitudes |
| `ComplexNumbers.Conj` | lib/complex.go:71-75 | negates the imaginary part; `ConjProperties` proves it an involution with c·conj(c) = re² + im² |
| `ComplexNumbers.Div` | lib/complex.go:28-32 | the complex quotient; `DivMulInverse` and `MulDivInverse` prove it and `mul` inverse to each other for a non-zero divisor |
| `ComplexNumbers.AbsComparison` | Complex.go:12-14 | for a non-negative square root s of re² + im² and a radius r ≥ 0, s ≤ r holds exactly when re² + im² ≤ r² |
| `ComplexNumbers.AddSubInverse` | lib/complex.go:16-26 | `sub(add(c, d), d) == c` and `add(sub(c, d), d) == c` |
| `ComplexNumbers.AddCommutative` | Complex.go:34-38 | `add` is commutative and has (0, 0) as identity |
| `ComplexNumbers.MulCommutative` | lib/complex.go:34-38 | `mul` is commutative |
| `ComplexNumbers.AbsSqMul` | Complex.go:22-26 | the squared magnitude of a product is the product of the squared magnitudes |
| `ComplexNumbers.Sq` | lib/complex.go:41-43 | the square has real part re² − im² and imaginary part 2·re·im |
| `ComplexNumbers.ConjProperties` | lib/complex.go:71-75 | conjugation is an involution, and c·conj(c) is the real number re² + im² |
| `ComplexNumbers.DivMulInverse` | lib/complex.go:28-32 | for a divisor with non-zero re² + im², `div(mul(c, d), d) == c` |
| `ComplexNumbers.MulDivInverse` | Complex.go:28-32 | for a divisor with non-zero re² + im², `mul(div(c, d), d) == c` |
| `Escape.Step` | lib/fractals.go:96-98 | one loop step: z·z + c for mandelbrot and julia, the folded step for the burning ship; `ShipStepFoldsThenSquares` proves the fold and `OrbitSnoc` that the loop applies it |
| `Escape.Iterate` | Fractals.go:81-83 | the loop stops at the first count where the guard fails: every earlier orbit point passed the magnitude test, the count never passes the cap (for cap ≥ 0), and it stops short of the cap only when the final z fails the magnitude test |
| `Escape.OrbitSnoc` | lib/fractals.go:96-98 | one more loop step applies the recurrence to the last orbit point |
| `Escape.MandelbrotPoint` | lib/fractals.go:91-100 | c is the pixel coordinate and z starts at 0; the count is at most the cap (for cap ≥ 0); every iterate before the last has re² + im² ≤ 4; stopping before the cap means the final z has re² + im² > 4 |
| `Escape.JuliaPoint` | lib/fractals.go:110-121 | c is (constants[0], constants[1]) and z starts at the pixel coordinate; iterates 1 to count stay within radius 2; stopping before the cap means the successor z·z + c of the returned z has re² + im² > 4 |
| `Escape.BurningShipPoint` | lib/fractals.go:134-146 | bailout radius 10 (re² + im² ≤ 100) with c = pixel coordinate; the colour function receives c = (0, 0); stopping before the cap means re² + im² > 100 |
| `Escape.ShipStepFoldsThenSquares` | lib/fractals.go:139-142 | the burning-ship step, with new imaginary part 2·abs(re)·abs(im) + yCoord, is (abs(re), abs(im))² + c |
| `Escape.FixedPointNeverEscapes` | Fractals.go:114-118 | a fixed point of the step that passes the magnitude test keeps the loop running to the cap |
| `Escape.MandelbrotOriginNeverEscapes` | Fractals.go:77-83 | with c = (0, 0) the mandelbrot count equals the cap (for cap ≥ 0) |
| `Escape.MandelbrotEscapesAtOnce` | lib/fractals.go:92-98 | a c with re² + im² > 4, such as (3, 0), stops after exactly one iteration whenever the cap is at least 1 |
| `Escape.BurningShipOriginNeverEscapes` | Fractals.go:110-118 | at the origin the burning-ship count equals the cap (for cap ≥ 0) |
| `Escape.EscapesAfterOneStep` | Fractals.go:98-100 | a start that passes the guard but whose successor fails it returns count 1 |
| `Escape.NonPositiveCap` | lib/fractals.go:96 | a cap of zero or less returns count 0 and the starting z unchanged |
| `Colors.GreyLevel` | lib/colors.go:6 | the grey level exists exactly when the cap is non-zero, times the cap it is 255·iterations, and it lies in [0, 255] when 0 ≤ iterations ≤ cap |
| `Colors.SimpleGreyscale` | lib/colors.go:5-8 | R = G = B, with R·cap = 255·iterations, alpha 255, every channel in [0, 255] for 0 ≤ iterations ≤ cap; no colour for cap 0 |
| `Colors.SimpleGreyscaleShip` | lib/colors.go:10-13 | the same colour as `simpleGreyscale` whatever constant that is given |
| `Colors.GreyLevelMonotone` | lib/colors.go:6 | for a positive cap the grey level never decreases as the iteration count grows |
| `Colors.GreyLevelFull` | lib/colors.go:11 | for a positive cap the grey level is 255 exactly when iterations equals the cap |
| `Colors.WhackyGrayscale` | lib/colors.go:15-20 | black (0, 0, 0, 255) exactly for an even iteration count, white (255, 255, 255, 255) otherwise |
| `Colors.WhackyGrayscaleShip` | lib/colors.go:22-27 | the same colour as `whackyGrayscale` whatever constant that is given |
| `Colors.WhackyAlternates` | lib/colors.go:16-19 | consecutive iteration counts get different colours; counts two apart get the same one |
| `Colors.Paint` | lib/colors.go:5-27 | each of the four modelled schemes yields a colour whenever the cap is non-zero, in range and with alpha 255 when 0 ≤ iterations ≤ cap; other schemes are left to the caller-supplied painter |
| `GoInt.EvenAgree` | lib/colors.go:16 | Go's truncated `iterations % 2 == 0` holds exactly when the Euclidean remainder is 0, negative counts included |
| `GoInt.NonNegativeAgree` | lib/generator.go:84-85 | for a non-negative index and a positive width, Go's `/` and `%` agree with the Euclidean ones |
| `Search.FindFirst` | lib/fractals.go:69-74 | the returned index is the first element that matches; none is returned exactly when no element matches |
| `Text.Lower` | lib/fractals.go:70 | lower-casing keeps the length, changes exactly the ASCII capitals (each by +32) and leaves no capital behind |
| `Text.LowerFixedPoint` | lib/fractals.go:53 | a name is unchanged by lower-casing exactly when it has no capital letter |
| `Text.LowerIdempotent` | lib/fractals.go:53 | lower-casing twice is lower-casing once |
| `Text.Join` | lib/fractals.go:33 | `strings.Join`; `JoinLength` and `JoinSnoc` state its length and how it grows |
| `Text.JoinLength` | lib/fractals.go:33 | a join of n ≥ 1 parts has the parts' total length plus n − 1 separators; a join of no parts is empty |
| `Text.JoinSnoc` | lib/fractals.go:33 | appending a part to a non-empty join appends the separator and the part |
| `Registry.LibFractals` | lib/fractals.go:84-149 | the lib table in order; `LibResolution` and `LibJuliaNeedsTwoConstants` state what resolving against it yields |
| `Registry.Describe` | lib/fractals.go:28-34 | the help text; `DescribeShape` states its prefix and length |
| `Registry.DescribeShape` | lib/fractals.go:28-34 | the help text starts with the name and a newline, and its length is name + description + 17 fixed characters + the scheme names + 2 per separator |
| `Registry.GetFractal` | lib/fractals.go:67-81 | success exactly when some entry's name equals the lower-cased argument, and then it is the first such entry; otherwise the invalid-fractal error |
| `Registry.GetPointFunc` | lib/fractals.go:38-64 | an unknown fractal gives the invalid-fractal error before anything else; a wrong constant count gives the constants error next; the invalid-colour error comes exactly when no scheme matches case-insensitively; success exactly when the fractal is found, the count matches and some scheme matches, and then the first matching scheme is bound to the fractal's recurrence and the constants |
| `Registry.GetPointFuncIgnoresCase` | lib/fractals.go:51-57 | resolution gives the same result for the lower-cased fractal and colour names |
| `Registry.LibResolution` | lib/fractals.go:84-133 | a successful lib resolution binds the recurrence its name selects, with two constants for julia and none for the others, so its point function can be evaluated |
| `Registry.LibJuliaNeedsTwoConstants` | lib/fractals.go:46-48 | "Julia" with one constant is refused with the constants error, whatever the colour name |
| `Registry.Evaluate` | lib/fractals.go:90-147 | a resolved point function's count is non-negative, and at most the cap whenever it is not 0 (so for every cap ≥ 0) |
| `Registry.PointColour` | lib/fractals.go:100 | with a positive cap and a modelled scheme the point function always yields a colour, every channel in [0, 255] and alpha 255 |
| `Registry.AsPointFn` | lib/fractals.go:90-101 | the point function the generator calls returns the resolved colour wherever the scheme gives one |
| `Registry.ExactSchemesOpaque` | lib/colors.go:5-27 | with one of the four modelled schemes the point function has alpha 255 at every cap, zero included |
| `RootRegistry.RootFractals` | Fractals.go:9-48 | the root map; `ShipSchemes`, `DefaultIsSimpleGreyscale` and `GenerationsAgree` state its keys and bindings |
| `RootRegistry.GetFractalFunction` | Fractals.go:50-71 | an unknown exact fractal key is rejected first, then a wrong constant count; the invalid-colour error comes exactly when the colour key is missing; success exactly otherwise, binding the keyed colour function |
| `RootRegistry.RootResolution` | Fractals.go:9-48 | a successful root lookup binds the recurrence its key names, with two constants for julia and none for mandelbrot and burningship |
| `RootRegistry.DefaultIsSimpleGreyscale` | Fractals.go:14-46 | "default" resolves like "simplegreyscale" for every fractal: simple greyscale, in its ship form for the burning ship |
| `RootRegistry.ShipSchemes` | Fractals.go:42-46 | the burning ship resolves exactly the keys default, simplegreyscale and whackygreyscale, and only to ship variants |
| `RootRegistry.ExactSchemesAlwaysColour` | Fractals.go:76-85 | with the right constants, a modelled colour key and a positive cap, resolution succeeds and the point function yields an in-range colour |
| `RootRegistry.ExactKeys` | Fractals.go:51 | keys are exact: "Mandelbrot" is an unknown fractal and "Default" an unknown colour |
| `RootRegistry.GenerationsAgree` | Fractals.go:9-48 | the lib finds a fractal exactly when the root map has the lower-cased name, with the same description, constant count and recurrence |
| `Generator.NewGenerator` | lib/generator.go:28-52 | the scale is one of the two image dimensions and no larger than either, and every other field is copied unchanged |
| `Generator.PixToCoord` | lib/generator.go:66-70 | the pixel-to-plane map; `PixToCoordCentre` and `PixToCoordAffine` state that it is affine with the centre at (xPos, yPos) |
| `Generator.PixToCoordCentre` | lib/generator.go:66-70 | the image centre (width/2, height/2) maps to (xPos, yPos) at any zoom |
| `Generator.PixToCoordAffine` | lib/generator.go:67-68 | a pixel displacement d moves the plane point by d·(2/scaler)/zoom on each axis |
| `Generator.ScalerSpansTwoOverZoom` | lib/generator.go:30-31 | the shorter side, scaler pixels long, spans 2/zoom plane units |
| `Generator.Offsets` | lib/generator.go:75-78 | one offset per sample; `OffsetsSymmetric`, `OffsetsInsidePixel`, `OffsetsEvenlySpaced` and `OffsetsSumZero` state where they lie |
| `Generator.OffsetsSymmetric` | lib/generator.go:77 | offsets s and samples − 1 − s cancel |
| `Generator.OffsetsInsidePixel` | lib/generator.go:75-78 | every offset lies strictly between −1/2 and 1/2 |
| `Generator.OffsetsEvenlySpaced` | lib/generator.go:77 | consecutive offsets are 1/samples apart |
| `Generator.SingleOffset` | Generator.go:80-82 | with one sample the only offset is 0 |
| `Generator.OffsetsPrefixSum` | Generator.go:81 | the first k offsets sum to (k² − k·samples)/(2·samples) |
| `Generator.OffsetsSumZero` | Generator.go:80-82 | the offsets sum to zero |
| `Generator.SampleColours` | lib/generator.go:89-97 | the colours of a pixel's samples in loop order; `SampleColoursGrid` states their number and order |
| `Generator.SampleColoursGrid` | lib/generator.go:89-93 | the sample list has samples² entries, and entry xs·samples + ys is the point function at offsets (xs, ys) |
| `Generator.LibAverage` | lib/generator.go:95-104 | the lib's sum divided once by samples²; `AverageOfConstant` and `AverageInRange` state its value and range |
| `Generator.RootAccumulate` | Generator.go:99-102 | the root package's running sum of samples each divided by samples²; `RootAccumulateMatchesLib` proves it equal to `LibAverage`'s division |
| `Generator.RootAccumulateMatchesLib` | Generator.go:99-102 | adding each sample divided by samples² equals dividing the sum once |
| `Generator.RootPixelColour` | Generator.go:91-105 | the root package's per-pixel accumulation; `RootPixelMatchesLib` proves it equal to the lib's pixel |
| `Generator.RootPixelMatchesLib` | Generator.go:83-105 | the root package and the lib give every pixel the same colour |
| `Generator.SumOfConstant` | lib/generator.go:95 | summing n copies of a colour scales it by n |
| `Generator.SumInRange` | lib/generator.go:95 | a sum of n in-range colours has channels in [0, 255·n] |
| `Generator.AverageOfConstant` | lib/generator.go:99-104 | averaging copies of one colour gives that colour |
| `Generator.AverageInRange` | lib/generator.go:101-104 | the average of in-range colours is in range |
| `Generator.PixelColour` | lib/generator.go:83-104 | the averaged colour of linear pixel i; `ConstantPointFunction`, `PixelColourInRange`, `PixelColourOpaque` and `RootPixelMatchesLib` state its value, range and agreement with the root package |
| `Generator.ConstantPointFunction` | lib/generator.go:83-104 | a point function with a constant colour at the generator's cap paints every pixel that colour |
| `Generator.PixelColourInRange` | lib/generator.go:87-104 | a point function whose channels lie in [0, 255] at the generator's cap gives pixels in [0, 255] |
| `Generator.SumOfOpaque` | lib/generator.go:95 | a sum of n opaque colours has alpha 255·n |
| `Generator.PixelColourOpaque` | lib/generator.go:89-104 | a point function whose colours at the generator's cap are opaque gives opaque pixels |
| `Generator.SingleSamplePixel` | lib/generator.go:89-93 | with one sample a pixel is the point function at the pixel's own plane coordinate |
| `ImageColor.ToUint8` | lib/generator.go:101-104 | a channel in (−1, 256) converts to a byte by truncation toward zero: the integer below a non-negative value and 0 for a value in (−1, 0); other values have no defined conversion |
| `ImageColor.Uint8` | Generator.go:105 | every float converts to a byte, and on (−1, 256) to the same byte as `ToUint8` |
| `ImageColor.NegativeFractionTruncates` | Generator.go:105 | −0.5 converts to 0 whatever the platform does out of range |
| `ImageColor.ToRgba8` | lib/generator.go:100-104 | the `color.RGBA` of an averaged colour has byte channels, each the truncation of its channel when the colour is in range |
| `ImageColor.ToNrgba` | lib/generator.go:99 | `Set` into the `image.NRGBA` keeps bytes and alpha, stores an opaque colour unchanged and a fully transparent one as zero |
| `ImageColor.Unpremultiply` | lib/generator.go:99 | the un-premultiplied 16-bit channel, shifted and truncated, is a byte |
| `ImageColor.HalfGreyTruncates` | lib/generator.go:100-104 | an averaged grey of 127.5 is stored as 127 |
| `ImageColor.PremultipliedWhite` | Generator.go:105 | a premultiplied white at alpha 128 is stored as (255, 255, 255, 128) |
| `ImageColor.UnpremultipliedRedWraps` | Generator.go:105 | a red of 255 at alpha 128, not premultiplied, is stored with red 253 |
| `Partition.Share` | lib/generator.go:83 | a worker's indices are strictly increasing, lie in [rno, size), and are exactly the indices below size on its stride |
| `Partition.ShareMembership` | Generator.go:87 | worker rno visits i exactly when 0 ≤ i < size and i % routines == rno |
| `Partition.SharesDisjoint` | Generator.go:69-70 | no index is visited by two different workers |
| `Partition.ExactlyOneWorker` | lib/generator.go:59-61 | every index in [0, size) is visited by exactly one worker, number i % routines, and only once by it |
| `Partition.NoDuplicates` | lib/generator.go:83 | in a strictly increasing visiting order no index repeats |
| `IntArith.RowMajor` | lib/generator.go:84-85 | `xPix = i % width` lies in [0, width), `yPix = i / width` lies in [0, height), and yPix·width + xPix == i; the sample grid is split the same way |
| `Render.StoredPixel` | lib/generator.go:99-104 | the stored pixel has byte channels: the averaged colour converted to `color.RGBA` and then by `Set` |
| `Render.StoredOpaquePixel` | lib/generator.go:99-104 | for a point function opaque and in range at the generator's cap, the stored pixel is the truncated average with alpha 255, whatever the platform does out of range |
| `Render.ResolvedSchemeStoresOpaque` | lib/generator.go:99-104 | with one of the four modelled schemes every stored pixel has alpha 255, whatever the cap |
| `Render.ResolvedSchemeStoresTruncatedAverage` | lib/generator.go:87-104 | a resolved point function with one of the four modelled schemes and a cap of at least 1 stores every pixel as its truncated average with alpha 255 |
| `Render.WriteAll` | lib/generator.go:99-104 | the indices written receive the colour computed for them, and every other pixel is unchanged |
| `Render.Worker` | lib/generator.go:72-108 | worker rno writes exactly the pixels with i % routines == rno and leaves all others unchanged |
| `Render.RunWorkers` | lib/generator.go:57-63 | the image after the first k workers have run; `RunWorkersPaints` states which pixels they have painted |
| `Render.RunWorkersPaints` | lib/generator.go:57-63 | after workers 0 to k − 1 exactly the pixels whose worker number is below k are painted; the rest are still zero |
| `Render.Generate` | lib/generator.go:55-64 | the image has width·height pixels; with at least one worker every pixel holds its stored colour, and with none the image stays zero |
| `Render.WorkerCountIrrelevant` | lib/generator.go:55-64 | the image is the same for any positive number of workers |

## Left out

- `main.go`: flag parsing, help printing, key sorting, timing and PNG encoding are I/O.
  Its lower-casing of the names before the root lookup appears only as
  `RootRegistry.GenerationsAgree`, stated for lower-cased names.
- Goroutines, the wait group and the worker's completion message: the workers are
  modelled as pure functions applied in sequence.
- IEEE-754 rounding, NaN and infinities, and `big.Float` precision (`SetPrec`) in the
  root `pixToCoord`: exact `real` stands in for `float64` and `big.Float`.
- `zGreyscale`, `smoothGreyscale`, `smoothColour` and `smoothColour2` need a square
  root, logarithms and float modulo. `Colors.Paint` takes them as a caller-supplied
  painter.
- `pow`, `sin`, `cos` and `exp` of the lib `complex`, and `exp` of the root `complex`:
  these are transcendental.
- `image.NRGBA.Set` is modelled as a sequence update. `ImageColor.ToNrgba` follows
  `color.NRGBAModel`, which is defined in Go's standard library.
- Render.Generate: Go's `uint8` conversion truncates toward zero, so a channel in
  (−1, 256) becomes a byte, and a channel in (−1, 0) becomes 0. For a float at or below
  −1, at or above 256, or NaN, Go leaves the result to the implementation. The model
  takes that choice as the parameter `outOfRange`, so it promises nothing about such
  channels beyond their being bytes.
- The root package's `simpleGreyscale`, `whackyGrayscale`, `simpleGreyscaleShip` and
  `whackyGrayscaleShip` are only referenced (Fractals.go:15-17, 43-45); their
  definitions are not part of this model. `RootRegistry.RootFractals` binds them to
  the `Colors` functions of lib/colors.go, on the assumption that they compute the
  same colours. `DefaultIsSimpleGreyscale`, `ShipSchemes` and
  `ExactSchemesAlwaysColour` rest on that assumption.
- `defaultColors` and the `colorScheme` type are not part of this model.
  `Registry.LibFractals` takes the default scheme list and the burning ship's two
  scheme values as parameters.
- ComplexNumbers.Div: requires a non-zero divisor, where Go returns NaN or an infinity.
- Colors.GreyLevel: `255*iterations` is an unbounded integer. Go's `int` wraps for
  counts above 2^63/255 on 64-bit targets, and above 2^31/255 (about 8.4 million) on
  32-bit targets such as 386 and arm.
- Registry.AsPointFn: where the scheme gives no colour (simple greyscale at a zero cap,
  which the command line accepts), Go's point function returns NaN in R, G and B with
  alpha 255. The model returns 0 in place of each NaN and keeps alpha 255, so the
  stored pixel is opaque as in Go, but its R, G and B bytes, which Go leaves to the
  platform, are 0.
- Colors.SimpleGreyscale: a zero cap gives no colour (None), where Go computes NaN or an
  infinity.
- ImageColor.ToUint8: values at or below −1 or at or above 256, NaN included, give
  None. Go converts them in an implementation-specific way.
- Text.Lower: only ASCII capitals are lower-cased. Go's `strings.ToLower` also folds
  other Unicode letters.
- Escape.JuliaPoint: requires at least two constants. With fewer, the source's
  indexing panics; resolution always supplies two.
- Render.Generate: requires width, height and samples of at least 1, a non-negative
  worker count and a non-zero zoom. Go panics in `wg.Add` for a negative count,
  computes 0/0 for zero samples, and divides by the zoom in `pixToCoord`
  (lib/generator.go:67-68).

=== FILE: colors.dfy ===
/** The colour schemes that need no transcendental function: the linear greyscale
    and the alternating ("whacky") black/white scheme, each in the variant that
    takes the constant `c` and the burning-ship variant that does not. */
module Colors {
  import opened Wrappers
  import opened ComplexNumbers
  import GoInt
  import opened RealArith

  /** A colour as the point functions return it: four float channels before 8-bit conversion. */
  datatype Rgba = Rgba(r: real, g: real, b: real, a: real)

  const Black := Rgba(0.0, 0.0, 0.0, 255.0)
  const White := Rgba(255.0, 255.0, 255.0, 255.0)
  /** The zero value of an image pixel (no colour, no alpha). */
  const Transparent := Rgba(0.0, 0.0, 0.0, 0.0)

  predicate IsGrey(c: Rgba) {
    c.r == c.g == c.b
  }

  predicate ChannelInRange(v: real) {
    0.0 <= v <= 255.0
  }

  /** Every channel lies in [0, 255], so the 8-bit conversion keeps its value. */
  predicate InRange(c: Rgba) {
    ChannelInRange(c.r) && ChannelInRange(c.g) && ChannelInRange(c.b) && ChannelInRange(c.a)
  }

  /** The colour functions a fractal can be paired with, by identity. */
  datatype ColorFn =
    | Simple | SimpleShip | Whacky | WhackyShip
    | ZGrey | SmoothGrey | SmoothColour | SmoothColour2

  /** The schemes modelled here, as opposed to those built on sqrt, log and float modulo. */
  predicate IsExact(f: ColorFn) {
    f.Simple? || f.SimpleShip? || f.Whacky? || f.WhackyShip?
  }

  /** The grey level `float64(255*iterations) / float64(iterationCap)`; None where the
      float division by a zero cap yields NaN or an infinity instead of a number. */
  function GreyLevel(iterations: int, cap: int): (v: Option<real>)
    ensures v.Some? <==> cap != 0
    ensures v.Some? ==> v.value * cap as real == 255.0 * iterations as real
    ensures cap > 0 && 0 <= iterations <= cap ==> v.Some? && ChannelInRange(v.value)
  {
    if cap == 0 then None
    else
      var v := (255 * iterations) as real / cap as real;
      QuotientTimesDivisor((255 * iterations) as real, cap as real);
      if cap > 0 && 0 <= iterations <= cap then
        QuotientBound((255 * iterations) as real, cap as real, 255.0);
        Some(v)
      else Some(v)
  }

  /** `simpleGreyscale`: the grey level on R, G and B, alpha 255. */
  function SimpleGreyscale(iterations: int, cap: int, z: Complex, c: Complex): (r: Option<Rgba>)
    ensures r.Some? <==> cap != 0
    ensures r.Some? ==> IsGrey(r.value) && r.value.a == 255.0
    ensures r.Some? ==> r.value.r * cap as real == 255.0 * iterations as real
    ensures cap > 0 && 0 <= iterations <= cap ==> r.Some? && InRange(r.value)
  {
    match GreyLevel(iterations, cap)
    case None => None
    case Some(v) => Some(Rgba(v, v, v, 255.0))
  }

  /** `simpleGreyscaleShip`: the same colour as `simpleGreyscale`, whatever constant it is given. */
  function SimpleGreyscaleShip(iterations: int, cap: int, z: Complex): (r: Option<Rgba>)
    ensures forall c :: r == SimpleGreyscale(iterations, cap, z, c)
  {
    match GreyLevel(iterations, cap)
    case None => None
    case Some(v) => Some(Rgba(v, v, v, 255.0))
  }

  /** The grey level never decreases as the iteration count grows. */
  lemma GreyLevelMonotone(i: int, j: int, cap: int)
    requires cap > 0 && i <= j
    ensures GreyLevel(i, cap).value <= GreyLevel(j, cap).value
  {
    var vi := GreyLevel(i, cap).value;
    var vj := GreyLevel(j, cap).value;
    assert (vj - vi) * cap as real == 255.0 * (j - i) as real;
    SignOfProduct(vj - vi, cap as real);
  }

  /** Full white is reached exactly at the iteration cap. */
  lemma GreyLevelFull(i: int, cap: int)
    requires cap > 0
    ensures GreyLevel(i, cap).value == 255.0 <==> i == cap
  {
    var v := GreyLevel(i, cap).value;
    assert v * cap as real == 255.0 * i as real;
    if v == 255.0 {
      assert 255.0 * cap as real == 255.0 * i as real;
    }
    if i == cap {
      assert (v - 255.0) * cap as real == 0.0;
      CancelFactor(v - 255.0, cap as real);
    }
  }

  /** `whackyGrayscale`: black for an even iteration count, white for an odd one. */
  function WhackyGrayscale(iterations: int, cap: int, z: Complex, c: Complex): (r: Rgba)
    ensures r == Black || r == White
    ensures r == Black <==> iterations % 2 == 0
  {
    GoInt.EvenAgree(iterations);
    if GoInt.Rem(iterations, 2) == 0 then Black else White
  }

  /** `whackyGrayscaleShip`: the same colour as `whackyGrayscale`, whatever constant it is given. */
  function WhackyGrayscaleShip(iterations: int, cap: int, z: Complex): (r: Rgba)
    ensures forall c :: r == WhackyGrayscale(iterations, cap, z, c)
  {
    GoInt.EvenAgree(iterations);
    if GoInt.Rem(iterations, 2) == 0 then Black else White
  }

  /** Consecutive iteration counts get opposite colours; counts two apart get the same one. */
  lemma WhackyAlternates(i: int, cap: int, z: Complex, c: Complex)
    ensures WhackyGrayscale(i + 1, cap, z, c) != WhackyGrayscale(i, cap, z, c)
    ensures WhackyGrayscale(i + 2, cap, z, c) == WhackyGrayscale(i, cap, z, c)
  {
  }

  /** The colour a scheme gives an escape result. The schemes built on square roots,
      logarithms and float modulo are supplied by the caller as `other`. */
  function Paint(f: ColorFn, iterations: int, cap: int, z: Complex, c: Complex,
                 other: (ColorFn, int, int, Complex, Complex) -> Option<Rgba>): (r: Option<Rgba>)
    ensures IsExact(f) && cap > 0 && 0 <= iterations <= cap ==> r.Some? && InRange(r.value) && r.value.a == 255.0
    ensures IsExact(f) && cap != 0 ==> r.Some?
    ensures !IsExact(f) ==> r == other(f, iterations, cap, z, c)
  {
    match f
    case Simple => SimpleGreyscale(iterations, cap, z, c)
    case SimpleShip => SimpleGreyscaleShip(iterations, cap, z)
    case Whacky => Some(WhackyGrayscale(iterations, cap, z, c))
    case WhackyShip => Some(WhackyGrayscaleShip(iterations, cap, z))
    case _ => other(f, iterations, cap, z, c)
  }

  function AddRgba(x: Rgba, y: Rgba): Rgba {
    Rgba(x.r + y.r, x.g + y.g, x.b + y.b, x.a + y.a)
  }

  function DivRgba(x: Rgba, d: real): Rgba
    requires d != 0.0
  {
    Rgba(x.r / d, x.g / d, x.b / d, x.a / d)
  }

  function ScaleRgba(x: Rgba, k: real): Rgba {
    Rgba(x.r * k, x.g * k, x.b * k, x.a * k)
  }
}

=== FILE: complex.dfy ===
/** Complex numbers over exact reals: the arithmetic every escape-time recurrence
    is built from. The fixed-precision `complex` of the lib package and the older
    root-package `complex` share these formulas; `real` stands in for both
    `float64` and `big.Float`. */
module ComplexNumbers {
  import opened RealArith

  datatype Complex = Complex(re: real, im: real)

  const Zero := Complex(0.0, 0.0)

  /** Squared magnitude re² + im²; every bailout test compares this against a squared radius. */
  function AbsSq(c: Complex): (r: real)
    ensures r >= 0.0
  {
    SquarePositive(c.re);
    SquarePositive(c.im);
    c.re * c.re + c.im * c.im
  }

  /** `abs(c) <= radius`, stated without a square root. */
  predicate WithinRadius(c: Complex, radius: real) {
    AbsSq(c) <= radius * radius
  }

  /** For any non-negative square root `s` of re² + im² (the value `abs` returns) and a
      non-negative radius, `s <= radius` holds exactly when the squared test does. */
  lemma AbsComparison(c: Complex, s: real, radius: real)
    requires s >= 0.0 && s * s == AbsSq(c)
    requires radius >= 0.0
    ensures s <= radius <==> WithinRadius(c, radius)
  {
    if s <= radius {
      SquareMonotone(s, radius);
    } else {
      SquareMonotone(radius, s);
    }
  }

  function Add(c: Complex, d: Complex): Complex {
    Complex(c.re + d.re, c.im + d.im)
  }

  function Sub(c: Complex, d: Complex): Complex {
    Complex(c.re - d.re, c.im - d.im)
  }

  function Mul(c: Complex, d: Complex): Complex {
    Complex(c.re * d.re - c.im * d.im, c.re * d.im + c.im * d.re)
  }

  /** The shorthand square: real part re² − im², imaginary part 2·re·im. */
  function Sq(c: Complex): (r: Complex)
    ensures r.re == c.re * c.re - c.im * c.im
    ensures r.im == 2.0 * c.re * c.im
  {
    Mul(c, c)
  }

  function Conj(c: Complex): Complex {
    Complex(c.re, -c.im)
  }

  /** Complex division; the denominator re² + im² of `d` must be non-zero. */
  function Div(c: Complex, d: Complex): Complex
    requires AbsSq(d) != 0.0
  {
    var den := AbsSq(d);
    Complex((c.re * d.re + c.im * d.im) / den, (c.im * d.re - c.re * d.im) / den)
  }

  /** Subtraction undoes addition, and addition undoes subtraction. */
  lemma AddSubInverse(c: Complex, d: Complex)
    ensures Sub(Add(c, d), d) == c
    ensures Add(Sub(c, d), d) == c
  {
  }

  lemma AddCommutative(c: Complex, d: Complex)
    ensures Add(c, d) == Add(d, c)
    ensures Add(c, Zero) == c
  {
  }

  lemma MulCommutative(c: Complex, d: Complex)
    ensures Mul(c, d) == Mul(d, c)
  {
  }

  /** Conjugation is an involution, and c·conj(c) is the real number |c|². */
  lemma ConjProperties(c: Complex)
    ensures Conj(Conj(c)) == c
    ensures Mul(c, Conj(c)) == Complex(AbsSq(c), 0.0)
  {
  }

  /** The squared magnitude is multiplicative: |c·d|² = |c|²·|d|². */
  lemma AbsSqMul(c: Complex, d: Complex)
    ensures AbsSq(Mul(c, d)) == AbsSq(c) * AbsSq(d)
  {
    var p := Mul(c, d);
    calc {
      AbsSq(p);
      (c.re * d.re - c.im * d.im) * (c.re * d.re - c.im * d.im)
        + (c.re * d.im + c.im * d.re) * (c.re * d.im + c.im * d.re);
      (c.re * c.re + c.im * c.im) * (d.re * d.re + d.im * d.im);
    }
  }

  /** Division undoes multiplication by a non-zero divisor. */
  lemma DivMulInverse(c: Complex, d: Complex)
    requires AbsSq(d) != 0.0
    ensures Div(Mul(c, d), d) == c
  {
    MulThenDiv(c.re, c.im, d.re, d.im);
  }

  /** Multiplication undoes division by a non-zero divisor. */
  lemma MulDivInverse(c: Complex, d: Complex)
    requires AbsSq(d) != 0.0
    ensures Mul(Div(c, d), d) == c
  {
    DivThenMul(c.re, c.im, d.re, d.im);
  }
}

=== FILE: escape.dfy ===
/** The escape-time loops of the three shipped fractals, as one engine selected by
    a tag: mandelbrot and julia step z ← z·z + c, the burning ship folds z into the
    first quadrant before squaring. Each loop runs `for iterations = 0; bounded &&
    iterations < cap; iterations++ { step }` and reports the count and the final z. */
module Escape {
  import opened ComplexNumbers

  datatype Kind = Mandelbrot | Julia | BurningShip

  function AbsReal(x: real): real {
    if x < 0.0 then -x else x
  }

  /** One step of the recurrence. For the burning ship `c` is the pixel coordinate
      (xCoord, yCoord): the new real part is re² − im² + xCoord and the new imaginary
      part 2·|re|·|im| + yCoord. */
  function Step(k: Kind, z: Complex, c: Complex): Complex {
    match k
    case BurningShip =>
      Complex(z.re * z.re - z.im * z.im + c.re, 2.0 * AbsReal(z.re) * AbsReal(z.im) + c.im)
    case _ => Add(Mul(z, z), c)
  }

  /** Bailout radius: 2 for mandelbrot and julia, 10 for the burning ship. */
  function Radius(k: Kind): real {
    if k == BurningShip then 10.0 else 2.0
  }

  /** The magnitude half of the loop guard. Julia tests the successor z·z + c rather than z. */
  predicate Bounded(k: Kind, z: Complex, c: Complex) {
    if k == Julia then WithinRadius(Step(k, z, c), Radius(k)) else WithinRadius(z, Radius(k))
  }

  /** The n-th iterate of the recurrence from z. */
  function Orbit(k: Kind, z: Complex, c: Complex, n: nat): Complex
    decreases n
  {
    if n == 0 then z else Orbit(k, Step(k, z, c), c, n - 1)
  }

  /** What a loop hands to the colour function: iteration count, final z and the constant. */
  datatype Outcome = Outcome(iterations: int, z: Complex, c: Complex)

  /** The loop from iteration `it` onwards with current value `z`. The count it returns is
      the first one at which the guard fails, counted from `it`: every earlier iterate
      passed the magnitude test, and the count stopped short of the cap only because
      the final z failed it. */
  function Iterate(k: Kind, z: Complex, c: Complex, it: int, cap: int): (r: Outcome)
    decreases cap - it
    ensures r.c == c
    ensures it <= r.iterations && (r.iterations == it || r.iterations <= cap)
    ensures r.z == Orbit(k, z, c, r.iterations - it)
    ensures forall j :: 0 <= j < r.iterations - it ==> Bounded(k, Orbit(k, z, c, j), c)
    ensures r.iterations < cap ==> !Bounded(k, r.z, c)
  {
    if Bounded(k, z, c) && it < cap then
      var r := Iterate(k, Step(k, z, c), c, it + 1, cap);
      assert forall j :: 1 <= j < r.iterations - it ==> Orbit(k, z, c, j) == Orbit(k, Step(k, z, c), c, j - 1);
      r
    else
      Outcome(it, z, c)
  }

  /** The mandelbrot point function's loop: z starts at 0 and c is the pixel coordinate. */
  function MandelbrotPoint(x: real, y: real, cap: int): (r: Outcome)
    ensures r.c == Complex(x, y)
    ensures 0 <= r.iterations && (r.iterations == 0 || r.iterations <= cap)
    ensures r.z == Orbit(Mandelbrot, Zero, r.c, r.iterations)
    ensures forall j :: 0 <= j < r.iterations ==> AbsSq(Orbit(Mandelbrot, Zero, r.c, j)) <= 4.0
    ensures r.iterations < cap ==> AbsSq(r.z) > 4.0
  {
    Iterate(Mandelbrot, Zero, Complex(x, y), 0, cap)
  }

  /** The julia point function's loop: z starts at the pixel coordinate and c is
      (constants[0], constants[1]); the guard looks one step ahead. */
  function JuliaPoint(constants: seq<real>, x: real, y: real, cap: int): (r: Outcome)
    requires |constants| >= 2
    ensures r.c == Complex(constants[0], constants[1])
    ensures 0 <= r.iterations && (r.iterations == 0 || r.iterations <= cap)
    ensures r.z == Orbit(Julia, Complex(x, y), r.c, r.iterations)
    ensures forall j :: 1 <= j <= r.iterations ==> AbsSq(Orbit(Julia, Complex(x, y), r.c, j)) <= 4.0
    ensures r.iterations < cap ==> AbsSq(Add(Mul(r.z, r.z), r.c)) > 4.0
  {
    var c := Complex(constants[0], constants[1]);
    var r := Iterate(Julia, Complex(x, y), c, 0, cap);
    forall j | 1 <= j <= r.iterations
      ensures AbsSq(Orbit(Julia, Complex(x, y), c, j)) <= 4.0
    {
      OrbitSnoc(Julia, Complex(x, y), c, j - 1);
      assert Bounded(Julia, Orbit(Julia, Complex(x, y), c, j - 1), c);
    }
    r
  }

  /** The burning ship point function's loop: bailout radius 10, and the colour
      function is handed the constant (0, 0) rather than the pixel coordinate. */
  function BurningShipPoint(x: real, y: real, cap: int): (r: Outcome)
    ensures r.c == Zero
    ensures 0 <= r.iterations && (r.iterations == 0 || r.iterations <= cap)
    ensures r.z == Orbit(BurningShip, Zero, Complex(x, y), r.iterations)
    ensures forall j :: 0 <= j < r.iterations ==> AbsSq(Orbit(BurningShip, Zero, Complex(x, y), j)) <= 100.0
    ensures r.iterations < cap ==> AbsSq(r.z) > 100.0
  {
    var e := Iterate(BurningShip, Zero, Complex(x, y), 0, cap);
    Outcome(e.iterations, e.z, Zero)
  }

  /** One more step appends to the orbit. */
  lemma {:induction false} OrbitSnoc(k: Kind, z: Complex, c: Complex, n: nat)
    ensures Orbit(k, z, c, n + 1) == Step(k, Orbit(k, z, c, n), c)
    decreases n
  {
    if n > 0 {
      OrbitSnoc(k, Step(k, z, c), c, n - 1);
    }
  }

  /** The burning-ship step squares z after folding it into the first quadrant:
      (|re|, |im|)² + c. */
  lemma ShipStepFoldsThenSquares(z: Complex, c: Complex)
    ensures Step(BurningShip, z, c) == Add(Sq(Complex(AbsReal(z.re), AbsReal(z.im))), c)
  {
    assert AbsReal(z.re) * AbsReal(z.re) == z.re * z.re;
    assert AbsReal(z.im) * AbsReal(z.im) == z.im * z.im;
  }

  /** A fixed point of the step is never left. */
  lemma {:induction false} FixedPointOrbit(k: Kind, z: Complex, c: Complex, n: nat)
    requires Step(k, z, c) == z
    ensures Orbit(k, z, c, n) == z
    decreases n
  {
    if n > 0 {
      FixedPointOrbit(k, z, c, n - 1);
    }
  }

  /** Zero is a fixed point of z ← z·z + 0 and of the burning-ship step at the origin. */
  lemma StepAtOrigin(k: Kind)
    ensures Step(k, Zero, Zero) == Zero
  {
    assert AbsReal(0.0) == 0.0;
  }

  /** A bounded fixed point of the step runs the loop to the cap. */
  lemma FixedPointNeverEscapes(k: Kind, z: Complex, c: Complex, cap: int)
    requires Step(k, z, c) == z && Bounded(k, z, c) && cap >= 0
    ensures Iterate(k, z, c, 0, cap).iterations == cap
    ensures Iterate(k, z, c, 0, cap).z == z
  {
    var r := Iterate(k, z, c, 0, cap);
    FixedPointOrbit(k, z, c, r.iterations);
  }

  /** Mandelbrot at the origin never escapes: the count is the cap. */
  lemma MandelbrotOriginNeverEscapes(cap: int)
    requires cap >= 0
    ensures MandelbrotPoint(0.0, 0.0, cap).iterations == cap
  {
    StepAtOrigin(Mandelbrot);
    FixedPointNeverEscapes(Mandelbrot, Zero, Zero, cap);
  }

  /** The burning ship at the origin never escapes either. */
  lemma BurningShipOriginNeverEscapes(cap: int)
    requires cap >= 0
    ensures BurningShipPoint(0.0, 0.0, cap).iterations == cap
  {
    StepAtOrigin(BurningShip);
    FixedPointNeverEscapes(BurningShip, Zero, Zero, cap);
  }

  /** A start that passes the guard but whose successor fails it stops after one step. */
  lemma EscapesAfterOneStep(k: Kind, z: Complex, c: Complex, cap: int)
    requires Bounded(k, z, c) && !Bounded(k, Step(k, z, c), c) && cap >= 1
    ensures Iterate(k, z, c, 0, cap).iterations == 1
  {
    assert Iterate(k, Step(k, z, c), c, 1, cap) == Outcome(1, Step(k, z, c), c);
  }

  /** A mandelbrot point with |c| > 2 escapes after exactly one iteration
      (for instance c = (3, 0)), whenever the cap allows one. */
  lemma MandelbrotEscapesAtOnce(x: real, y: real, cap: int)
    requires AbsSq(Complex(x, y)) > 4.0 && cap >= 1
    ensures MandelbrotPoint(x, y, cap).iterations == 1
  {
    var c := Complex(x, y);
    MandelbrotStepFromZero(c);
    EscapesAfterOneStep(Mandelbrot, Zero, c, cap);
  }

  /** From z = 0 the first mandelbrot step lands on c. */
  lemma MandelbrotStepFromZero(c: Complex)
    ensures Bounded(Mandelbrot, Zero, c)
    ensures Step(Mandelbrot, Zero, c) == c
  {
  }

  /** A negative or zero cap stops every loop before its first step. */
  lemma NonPositiveCap(k: Kind, z: Complex, c: Complex, cap: int)
    requires cap <= 0
    ensures Iterate(k, z, c, 0, cap) == Outcome(0, z, c)
  {
  }
}

=== FILE: generator.dfy ===
/** The generator's arithmetic: the isotropic scale, the pixel-to-plane map, the
    centred sub-pixel offsets and the supersample accumulation of both generations
    (the lib sums samples and divides once; the root package divides each sample). */
module Generator {
  import opened Colors
  import opened RealArith
  import opened IntArith

  /** The generator's configuration; `scaler` is derived from the image size. */
  datatype Generator = Generator(
    width: int, height: int, routines: int, iterationCap: int, samples: int,
    xPos: real, yPos: real, zoom: real, scaler: real)

  /** `NewGenerator`: the smaller image dimension becomes the scale of both axes. */
  function NewGenerator(width: int, height: int, routines: int, iterationCap: int, samples: int,
                        xPos: real, yPos: real, zoom: real): (g: Generator)
    ensures g.scaler <= width as real && g.scaler <= height as real
    ensures g.scaler == width as real || g.scaler == height as real
    ensures g == Generator(width, height, routines, iterationCap, samples, xPos, yPos, zoom, g.scaler)
  {
    var scaler := if width < height then width as real else height as real;
    Generator(width, height, routines, iterationCap, samples, xPos, yPos, zoom, scaler)
  }

  /** The configurations a render runs with: a non-empty image, at least one sample,
      no negative worker count, and a non-zero scale and zoom to divide by. */
  predicate Valid(g: Generator) {
    g.width >= 1 && g.height >= 1 && g.samples >= 1 && g.routines >= 0
    && g.scaler != 0.0 && g.zoom != 0.0
  }

  /** Plane units per pixel: (2 / scaler) / zoom. */
  function PixelStep(g: Generator): real
    requires g.scaler != 0.0 && g.zoom != 0.0
  {
    (2.0 / g.scaler) / g.zoom
  }

  /** One axis of `pixToCoord`: shift the origin to the image centre, scale, then
      shift to the configured centre. */
  function AxisCoord(pix: real, size: int, step: real, pos: real): real {
    (pix - size as real / 2.0) * step + pos
  }

  /** `pixToCoord`: both axes with the same pixel step. */
  function PixToCoord(g: Generator, xPix: real, yPix: real): (real, real)
    requires g.scaler != 0.0 && g.zoom != 0.0
  {
    (AxisCoord(xPix, g.width, PixelStep(g), g.xPos), AxisCoord(yPix, g.height, PixelStep(g), g.yPos))
  }

  /** The centre of an axis maps to the configured centre. */
  lemma AxisCentre(size: int, step: real, pos: real)
    ensures AxisCoord(size as real / 2.0, size, step, pos) == pos
  {
    assert size as real / 2.0 - size as real / 2.0 == 0.0;
  }

  /** Moving `d` pixels along an axis moves the coordinate by `d` steps. */
  lemma AxisShift(pix: real, d: real, size: int, step: real, pos: real)
    ensures AxisCoord(pix + d, size, step, pos) - AxisCoord(pix, size, step, pos) == d * step
  {
    assert (pix + d - size as real / 2.0) * step == (pix - size as real / 2.0) * step + d * step;
  }

  /** The centre of the image maps to the configured centre, at any zoom. */
  lemma PixToCoordCentre(g: Generator)
    requires g.scaler != 0.0 && g.zoom != 0.0
    ensures PixToCoord(g, g.width as real / 2.0, g.height as real / 2.0) == (g.xPos, g.yPos)
  {
    AxisCentre(g.width, PixelStep(g), g.xPos);
    AxisCentre(g.height, PixelStep(g), g.yPos);
  }

  /** The map is affine: a pixel displacement (dx, dy) moves the plane point by
      (dx, dy) times the pixel step on each axis. */
  lemma PixToCoordAffine(g: Generator, x: real, y: real, dx: real, dy: real)
    requires g.scaler != 0.0 && g.zoom != 0.0
    ensures PixToCoord(g, x + dx, y + dy).0 - PixToCoord(g, x, y).0 == dx * PixelStep(g)
    ensures PixToCoord(g, x + dx, y + dy).1 - PixToCoord(g, x, y).1 == dy * PixelStep(g)
  {
    AxisShift(x, dx, g.width, PixelStep(g), g.xPos);
    AxisShift(y, dy, g.height, PixelStep(g), g.yPos);
  }

  /** A run of `scaler` pixels (the whole shorter side) spans 2 / zoom plane units. */
  lemma ScalerSpansTwoOverZoom(g: Generator, x: real, y: real)
    requires g.scaler != 0.0 && g.zoom != 0.0
    ensures PixToCoord(g, x + g.scaler, y).0 - PixToCoord(g, x, y).0 == 2.0 / g.zoom
  {
    PixToCoordAffine(g, x, y, g.scaler, 0.0);
    assert g.scaler * ((2.0 / g.scaler) / g.zoom) == 2.0 / g.zoom;
  }

  /** The sub-pixel offsets (1 + 2s − samples) / (2·samples) for s in [0, samples). */
  function Offsets(samples: int): (r: seq<real>)
    requires samples >= 0
    ensures |r| == samples
  {
    seq(samples, s requires 0 <= s < samples => (1 + 2 * s - samples) as real / (2 * samples) as real)
  }

  /** Offsets mirrored about the pixel centre cancel. */
  lemma OffsetsSymmetric(samples: int, s: int)
    requires samples >= 1 && 0 <= s < samples
    ensures Offsets(samples)[s] + Offsets(samples)[samples - 1 - s] == 0.0
  {
    var d := (2 * samples) as real;
    var o := Offsets(samples);
    assert o[s] == (1 + 2 * s - samples) as real / d;
    assert o[samples - 1 - s] == (-(1 + 2 * s - samples)) as real / d;
  }

  /** Every offset stays strictly inside the pixel: in (−1/2, 1/2). */
  lemma OffsetsInsidePixel(samples: int, s: int)
    requires samples >= 1 && 0 <= s < samples
    ensures -0.5 < Offsets(samples)[s] < 0.5
  {
    var n := (1 + 2 * s - samples) as real;
    var d := (2 * samples) as real;
    assert -d < 2.0 * n < d;
    QuotientTimesDivisor(n, d);
    var v := n / d;
    assert v * d == n;
    assert (0.5 - v) * d == 0.5 * d - n;
    SignOfProduct(0.5 - v, d);
    assert (v + 0.5) * d == n + 0.5 * d;
    SignOfProduct(v + 0.5, d);
  }

  /** Consecutive offsets are 1 / samples apart: the samples are evenly spaced. */
  lemma OffsetsEvenlySpaced(samples: int, s: int)
    requires samples >= 1 && 0 <= s < samples - 1
    ensures Offsets(samples)[s + 1] - Offsets(samples)[s] == 1.0 / samples as real
  {
    var d := (2 * samples) as real;
    var o := Offsets(samples);
    assert o[s + 1] - o[s] == 2.0 / d;
  }

  /** A single sample sits at the pixel's own coordinate. */
  lemma SingleOffset()
    ensures Offsets(1) == [0.0]
  {
  }

  /** Sum of a sequence of reals, accumulated front to back. */
  function Sum(xs: seq<real>): real {
    if |xs| == 0 then 0.0 else Sum(xs[..|xs| - 1]) + xs[|xs| - 1]
  }

  /** The first k offsets sum to (k² − k·samples) / (2·samples). */
  lemma {:induction false} OffsetsPrefixSum(samples: int, k: int)
    requires samples >= 1 && 0 <= k <= samples
    ensures Sum(Offsets(samples)[..k]) == (k * k - k * samples) as real / (2 * samples) as real
  {
    var o := Offsets(samples);
    var d := (2 * samples) as real;
    if k > 0 {
      OffsetsPrefixSum(samples, k - 1);
      var prevInt := (k - 1) * (k - 1) - (k - 1) * samples;
      var stepInt := 1 + 2 * (k - 1) - samples;
      assert o[..k][..k - 1] == o[..k - 1];
      assert Sum(o[..k]) == Sum(o[..k - 1]) + o[k - 1];
      assert o[k - 1] == stepInt as real / d;
      PrefixSumStep(k, samples);
      DivAdd(prevInt as real, stepInt as real, d);
    }
  }

  /** The integer identity behind one step of the prefix sum. */
  lemma PrefixSumStep(k: int, samples: int)
    ensures ((k - 1) * (k - 1) - (k - 1) * samples) + (1 + 2 * (k - 1) - samples) == k * k - k * samples
  {
    assert (k - 1) * (k - 1) == k * k - 2 * k + 1;
    assert (k - 1) * samples == k * samples - samples;
  }

  /** The offsets are zero-mean: they sum to zero for every sample count. */
  lemma OffsetsSumZero(samples: int)
    requires samples >= 1
    ensures Sum(Offsets(samples)) == 0.0
  {
    OffsetsPrefixSum(samples, samples);
    assert Offsets(samples)[..samples] == Offsets(samples);
  }

  /** A point function: plane coordinate and iteration cap to a colour. */
  type PointFn = (real, real, int) -> Rgba

  /** The colour of sample (xs, ys) of pixel (xPix, yPix). */
  function SampleAt(g: Generator, fn: PointFn, xPix: int, yPix: int, xs: int, ys: int): Rgba
    requires g.samples >= 1 && g.scaler != 0.0 && g.zoom != 0.0
    requires 0 <= xs < g.samples && 0 <= ys < g.samples
  {
    var o := Offsets(g.samples);
    var p := PixToCoord(g, xPix as real + o[xs], yPix as real + o[ys]);
    fn(p.0, p.1, g.iterationCap)
  }

  /** The samples of one pixel in the order the nested loops visit them: xSample outer,
      ySample inner. */
  function SampleColours(g: Generator, fn: PointFn, xPix: int, yPix: int): (r: seq<Rgba>)
    requires g.samples >= 1 && g.scaler != 0.0 && g.zoom != 0.0
  {
    var n := g.samples;
    seq(n * n, j requires 0 <= j < n * n =>
      RowMajor(j, n, n);
      SampleAt(g, fn, xPix, yPix, j / n, j % n))
  }

  /** The sample list holds samples·samples entries, and entry xs·samples + ys is the
      colour at offsets (xs, ys): every combination of the two offset loops, once. */
  lemma SampleColoursGrid(g: Generator, fn: PointFn, xPix: int, yPix: int, xs: int, ys: int)
    requires g.samples >= 1 && g.scaler != 0.0 && g.zoom != 0.0
    requires 0 <= xs < g.samples && 0 <= ys < g.samples
    ensures |SampleColours(g, fn, xPix, yPix)| == g.samples * g.samples
    ensures 0 <= xs * g.samples + ys < g.samples * g.samples
    ensures SampleColours(g, fn, xPix, yPix)[xs * g.samples + ys] == SampleAt(g, fn, xPix, yPix, xs, ys)
  {
    var n := g.samples;
    var j := xs * n + ys;
    GridIndexBounds(xs, ys, n);
    DivModUnique(j, n, xs, ys);
    SampleColoursAt(g, fn, xPix, yPix, j);
  }

  /** Index xs·n + ys of an n-by-n grid lies inside it. */
  lemma GridIndexBounds(xs: int, ys: int, n: int)
    requires 0 <= xs < n && 0 <= ys < n
    ensures 0 <= xs * n + ys < n * n
  {
    MulMonotone(n - 1, xs, n);
    MulMonotone(xs, 0, n);
    assert (n - 1) * n + n == n * n;
  }

  /** Entry j of the sample list is the sample at offsets (j / samples, j % samples). */
  lemma SampleColoursAt(g: Generator, fn: PointFn, xPix: int, yPix: int, j: int)
    requires g.samples >= 1 && g.scaler != 0.0 && g.zoom != 0.0
    requires 0 <= j < g.samples * g.samples
    ensures |SampleColours(g, fn, xPix, yPix)| == g.samples * g.samples
    ensures 0 <= j / g.samples < g.samples && 0 <= j % g.samples < g.samples
    ensures SampleColours(g, fn, xPix, yPix)[j] == SampleAt(g, fn, xPix, yPix, j / g.samples, j % g.samples)
  {
    RowMajor(j, g.samples, g.samples);
  }

  /** Channel-wise sum of colours, accumulated in loop order (`R, G, B, A = R+r, ...`). */
  function SumRgba(cs: seq<Rgba>): Rgba {
    if |cs| == 0 then Transparent else AddRgba(SumRgba(cs[..|cs| - 1]), cs[|cs| - 1])
  }

  /** The lib's pixel value: the sum of all samples divided once by samples². */
  function LibAverage(cs: seq<Rgba>, samples: int): Rgba
    requires samples >= 1
  {
    DivRgba(SumRgba(cs), (samples * samples) as real)
  }

  /** The root package's pixel value: each sample divided by samples² as it is added. */
  function RootAccumulate(cs: seq<Rgba>, samplesSquared: real): Rgba
    requires samplesSquared != 0.0
  {
    if |cs| == 0 then Transparent
    else AddRgba(RootAccumulate(cs[..|cs| - 1], samplesSquared), DivRgba(cs[|cs| - 1], samplesSquared))
  }

  /** Dividing each sample as it is added equals adding first and dividing once. */
  lemma {:induction false} RootAccumulateMatchesLib(cs: seq<Rgba>, d: real)
    requires d != 0.0
    ensures RootAccumulate(cs, d) == DivRgba(SumRgba(cs), d)
  {
    if |cs| > 0 {
      var init := cs[..|cs| - 1];
      var last := cs[|cs| - 1];
      RootAccumulateMatchesLib(init, d);
      var s := SumRgba(init);
      DivAdd(s.r, last.r, d);
      DivAdd(s.g, last.g, d);
      DivAdd(s.b, last.b, d);
      DivAdd(s.a, last.a, d);
    }
  }

  /** The sum of copies of one colour is that colour scaled by the count. */
  lemma {:induction false} SumOfConstant(cs: seq<Rgba>, c: Rgba)
    requires forall j :: 0 <= j < |cs| ==> cs[j] == c
    ensures SumRgba(cs) == ScaleRgba(c, |cs| as real)
  {
    if |cs| > 0 {
      SumOfConstant(cs[..|cs| - 1], c);
    }
  }

  /** The sum of colours whose channels lie in [0, 255] has channels in [0, 255·count]. */
  lemma {:induction false} SumInRange(cs: seq<Rgba>)
    requires forall j :: 0 <= j < |cs| ==> InRange(cs[j])
    ensures var s := SumRgba(cs); var m := 255.0 * |cs| as real;
      0.0 <= s.r <= m && 0.0 <= s.g <= m && 0.0 <= s.b <= m && 0.0 <= s.a <= m
  {
    if |cs| > 0 {
      SumInRange(cs[..|cs| - 1]);
    }
  }

  /** Averaging copies of one colour gives that colour back. */
  lemma AverageOfConstant(cs: seq<Rgba>, c: Rgba, samples: int)
    requires samples >= 1 && |cs| == samples * samples
    requires forall j :: 0 <= j < |cs| ==> cs[j] == c
    ensures LibAverage(cs, samples) == c
  {
    var n := (samples * samples) as real;
    SumOfConstant(cs, c);
    DivScaled(c.r, n);
    DivScaled(c.g, n);
    DivScaled(c.b, n);
    DivScaled(c.a, n);
  }

  /** Averaging colours in range keeps the average in range. */
  lemma AverageInRange(cs: seq<Rgba>, samples: int)
    requires samples >= 1 && |cs| == samples * samples
    requires forall j :: 0 <= j < |cs| ==> InRange(cs[j])
    ensures InRange(LibAverage(cs, samples))
  {
    var n := (samples * samples) as real;
    MulMonotone(samples, 1, samples);
    SumInRange(cs);
    var s := SumRgba(cs);
    QuotientBound(s.r, n, 255.0);
    QuotientBound(s.g, n, 255.0);
    QuotientBound(s.b, n, 255.0);
    QuotientBound(s.a, n, 255.0);
  }

  /** The averaged colour of linear pixel `i` at (i % width, i / width), as the lib computes it. */
  function PixelColour(g: Generator, fn: PointFn, i: int): Rgba
    requires Valid(g) && 0 <= i
  {
    LibAverage(SampleColours(g, fn, i % g.width, i / g.width), g.samples)
  }

  /** The same pixel as the root package accumulates it. */
  function RootPixelColour(g: Generator, fn: PointFn, i: int): Rgba
    requires Valid(g) && 0 <= i
  {
    RootAccumulate(SampleColours(g, fn, i % g.width, i / g.width), (g.samples * g.samples) as real)
  }

  /** Both generations give every pixel the same colour in exact arithmetic. */
  lemma RootPixelMatchesLib(g: Generator, fn: PointFn, i: int)
    requires Valid(g) && 0 <= i
    ensures RootPixelColour(g, fn, i) == PixelColour(g, fn, i)
  {
    MulMonotone(g.samples, 1, g.samples);
    RootAccumulateMatchesLib(SampleColours(g, fn, i % g.width, i / g.width), (g.samples * g.samples) as real);
  }

  /** A point function that always returns one colour paints every pixel that colour. */
  lemma ConstantPointFunction(g: Generator, fn: PointFn, c: Rgba, i: int)
    requires Valid(g) && 0 <= i
    requires forall x, y :: fn(x, y, g.iterationCap) == c
    ensures PixelColour(g, fn, i) == c
  {
    AverageOfConstant(SampleColours(g, fn, i % g.width, i / g.width), c, g.samples);
  }

  /** A point function whose channels lie in [0, 255] yields pixels in [0, 255]. */
  lemma PixelColourInRange(g: Generator, fn: PointFn, i: int)
    requires Valid(g) && 0 <= i
    requires forall x, y :: InRange(fn(x, y, g.iterationCap))
    ensures InRange(PixelColour(g, fn, i))
  {
    AverageInRange(SampleColours(g, fn, i % g.width, i / g.width), g.samples);
  }

  /** Without supersampling a pixel is the point function at its own coordinate. */
  lemma SingleSamplePixel(g: Generator, fn: PointFn, i: int)
    requires Valid(g) && 0 <= i && g.samples == 1
    ensures var p := PixToCoord(g, (i % g.width) as real, (i / g.width) as real);
      PixelColour(g, fn, i) == fn(p.0, p.1, g.iterationCap)
  {
    var cs := SampleColours(g, fn, i % g.width, i / g.width);
    SingleOffset();
    assert cs == [cs[0]];
    assert SumRgba(cs) == AddRgba(Transparent, cs[0]);
  }

  /** Colours that are all opaque sum to an alpha of 255 per colour. */
  lemma {:induction false} SumOfOpaque(cs: seq<Rgba>)
    requires forall j :: 0 <= j < |cs| ==> cs[j].a == 255.0
    ensures SumRgba(cs).a == 255.0 * |cs| as real
  {
    if |cs| > 0 {
      SumOfOpaque(cs[..|cs| - 1]);
    }
  }

  /** A point function that only returns opaque colours yields opaque pixels. */
  lemma PixelColourOpaque(g: Generator, fn: PointFn, i: int)
    requires Valid(g) && 0 <= i
    requires forall x, y :: fn(x, y, g.iterationCap).a == 255.0
    ensures PixelColour(g, fn, i).a == 255.0
  {
    var cs := SampleColours(g, fn, i % g.width, i / g.width);
    MulMonotone(g.samples, 1, g.samples);
    SumOfOpaque(cs);
    DivScaled(255.0, (g.samples * g.samples) as real);
  }
}

=== FILE: goint.dfy ===
/** Go's integer division and remainder, which truncate toward zero. */
module GoInt {

  function Abs(a: int): nat {
    if a < 0 then -a else a
  }

  /** Go's `a / b`: the quotient truncated toward zero. */
  function Quo(a: int, b: int): int
    requires b != 0
  {
    var q := Abs(a) / Abs(b);
    if (a < 0) != (b < 0) then -q else q
  }

  /** Go's `a % b`: the remainder takes the sign of the dividend. */
  function Rem(a: int, b: int): int
    requires b != 0
  {
    a - b * Quo(a, b)
  }

  /** On a non-negative dividend and a positive divisor Go agrees with Dafny's operators. */
  lemma NonNegativeAgree(a: int, b: int)
    requires a >= 0 && b > 0
    ensures Quo(a, b) == a / b
    ensures Rem(a, b) == a % b
  {
  }

  /** A parity test `a % 2 == 0` means the same thing under both conventions. */
  lemma EvenAgree(a: int)
    ensures Rem(a, 2) == 0 <==> a % 2 == 0
  {
    assert Abs(2) == 2;
    if a >= 0 {
      NonNegativeAgree(a, 2);
    } else {
      var n := -a;
      NonNegativeAgree(n, 2);
      assert Quo(a, 2) == -Quo(n, 2);
      assert Rem(a, 2) == -Rem(n, 2);
      assert a == 2 * (-(n / 2)) - n % 2;
    }
  }
}

=== FILE: imagecolor.dfy ===
/** The 8-bit colours the generator stores: Go's `uint8` conversion of each averaged
    channel into a `color.RGBA`, and the conversion `image.NRGBA.Set` applies to it
    (the standard library's `color.NRGBAModel`, which un-premultiplies by alpha). */
module ImageColor {
  import opened Wrappers
  import opened Colors

  /** A colour of 8-bit channels, as `color.RGBA` and `color.NRGBA` hold it. */
  datatype Rgba8 = Rgba8(r: int, g: int, b: int, a: int)

  predicate IsByte(v: int) {
    0 <= v < 256
  }

  predicate IsBytes(c: Rgba8) {
    IsByte(c.r) && IsByte(c.g) && IsByte(c.b) && IsByte(c.a)
  }

  /** The zero value of `color.NRGBA`, which a fresh image holds. */
  const Clear8 := Rgba8(0, 0, 0, 0)

  /** Go's `uint8(v)` where the language defines it: the float is truncated toward
      zero, and the result is defined when that integer is a byte, that is for v in
      (−1, 256). Other values convert in an implementation-specific way and give
      None here. */
  function ToUint8(v: real): (r: Option<int>)
    ensures r.Some? <==> -1.0 < v < 256.0
    ensures r.Some? ==> IsByte(r.value)
    ensures r.Some? && v >= 0.0 ==> r.value as real <= v < r.value as real + 1.0
    ensures r.Some? && v < 0.0 ==> r.value == 0
  {
    if -1.0 < v < 256.0 then Some(if v < 0.0 then 0 else v.Floor) else None
  }

  /** Go's `uint8(v)` for every float. Where truncation toward zero does not give a
      byte (v ≤ −1 or v ≥ 256) the language leaves the result to the implementation;
      `outOfRange` is that implementation's choice, reduced to a byte. */
  function Uint8(v: real, outOfRange: real -> int): (r: int)
    ensures IsByte(r)
    ensures ToUint8(v).Some? ==> r == ToUint8(v).value
  {
    match ToUint8(v)
    case Some(b) => b
    case None => outOfRange(v) % 256
  }

  /** `color.RGBA{uint8(R), uint8(G), uint8(B), uint8(A)}` of an averaged colour. */
  function ToRgba8(c: Rgba, outOfRange: real -> int): (r: Rgba8)
    ensures IsBytes(r)
    ensures InRange(c) ==> r == Rgba8(c.r.Floor, c.g.Floor, c.b.Floor, c.a.Floor)
  {
    Rgba8(Uint8(c.r, outOfRange), Uint8(c.g, outOfRange), Uint8(c.b, outOfRange), Uint8(c.a, outOfRange))
  }

  /** One channel of `color.NRGBAModel`: the 16-bit channel `v·0x101` scaled by
      0xffff over the 16-bit alpha, shifted back to 8 bits and truncated to a byte.
      The product stays below 2^32, so the `uint32` arithmetic does not wrap. */
  function Unpremultiply(v: int, a16: int): (r: int)
    requires IsByte(v) && 0 < a16 <= 0xffff
    ensures IsByte(r)
  {
    ((v * 0x101 * 0xffff) / a16 / 0x100) % 0x100
  }

  /** `image.NRGBA.Set` of a `color.RGBA`: an opaque colour is stored as it is, a
      fully transparent one as zero, and any other has its channels divided by its
      alpha, since `color.RGBA` is read as alpha-premultiplied. */
  function ToNrgba(c: Rgba8): (r: Rgba8)
    requires IsBytes(c)
    ensures IsBytes(r)
    ensures r.a == c.a
    ensures c.a == 255 ==> r == c
    ensures c.a == 0 ==> r == Clear8
  {
    var a16 := c.a * 0x101;
    if a16 == 0xffff then Rgba8((c.r * 0x101) / 0x100, (c.g * 0x101) / 0x100, (c.b * 0x101) / 0x100, 0xff)
    else if a16 == 0 then Clear8
    else Rgba8(Unpremultiply(c.r, a16), Unpremultiply(c.g, a16), Unpremultiply(c.b, a16), a16 / 0x100)
  }

  /** An averaged grey of 127.5 is stored as 127: the conversion truncates. */
  lemma HalfGreyTruncates(outOfRange: real -> int)
    ensures ToNrgba(ToRgba8(Rgba(127.5, 127.5, 127.5, 255.0), outOfRange)) == Rgba8(127, 127, 127, 255)
  {
  }

  /** A float just below zero truncates toward zero, so it converts to 0 on every
      platform. */
  lemma NegativeFractionTruncates(outOfRange: real -> int)
    ensures Uint8(-0.5, outOfRange) == 0
  {
  }

  /** A premultiplied half-transparent white is stored as full white with its alpha. */
  lemma PremultipliedWhite()
    ensures ToNrgba(Rgba8(128, 128, 128, 128)) == Rgba8(255, 255, 255, 128)
  {
  }

  /** A colour that is not premultiplied (a channel above alpha) comes out changed:
      a red of 255 at alpha 128 is stored as 253 after the byte truncation. */
  lemma UnpremultipliedRedWraps()
    ensures ToNrgba(Rgba8(255, 0, 0, 128)) == Rgba8(253, 0, 0, 128)
  {
  }
}

=== FILE: intarith.dfy ===
/** Integer facts shared by the pixel split and the supersample grid. */
module IntArith {

  /** Multiplying by a positive number keeps the order of integers. */
  lemma MulMonotone(a: int, b: int, m: int)
    requires m >= 1
    ensures a >= b ==> a * m >= b * m
    ensures a >= b + 1 ==> a * m >= b * m + m
  {
    assert a * m - b * m == (a - b) * m;
    if a >= b {
      assert (a - b) * m >= 0;
    }
    if a >= b + 1 {
      assert (a - b) * m == (a - b - 1) * m + m;
      assert (a - b - 1) * m >= 0;
    }
  }

  /** Quotient and remainder are the only decomposition d = q·m + r with 0 <= r < m. */
  lemma DivModUnique(d: int, m: int, q: int, r: int)
    requires m >= 1 && 0 <= r < m && d == q * m + r
    ensures d / m == q && d % m == r
  {
    var q' := d / m;
    var r' := d % m;
    assert q' * m + r' == d;
    MulMonotone(q, q', m);
    MulMonotone(q', q, m);
  }

  /** Row-major decomposition of a linear index into a grid of `width` columns and
      `height` rows: column `i % width` and row `i / width` lie inside the grid and
      recompose to `i`. Pixel indices and sample indices are both split this way. */
  lemma RowMajor(i: int, width: int, height: int)
    requires width >= 1 && 0 <= i < width * height
    ensures 0 <= i % width < width
    ensures 0 <= i / width < height
    ensures (i / width) * width + i % width == i
  {
    MulMonotone(i / width, height, width);
  }
}

=== FILE: partition.dfy ===
/** The strided split of pixel work between workers: worker `rno` runs
    `for i := rno; i < size; i = i + routines`. Stated as a pure function of the
    worker index; the goroutines and the wait group are not modelled. */
module Partition {
  import opened IntArith

  /** `i` lies on the stride that starts at `start` and steps by `m`. */
  predicate OnStride(i: int, start: int, m: int)
    requires m >= 1
  {
    start <= i && (i - start) % m == 0
  }

  /** A stride is its start followed by the stride one step further on. */
  lemma StrideStep(i: int, start: int, m: int)
    requires m >= 1
    ensures OnStride(i, start, m) <==> i == start || OnStride(i, start + m, m)
  {
    var d := i - start;
    if d >= m {
      DivModUnique(d - m, m, d / m - 1, d % m);
    } else if d > 0 {
      DivModUnique(d, m, 0, d);
    }
  }

  /** The indices worker `rno` visits, in visiting order. */
  function Share(rno: int, routines: int, size: int): (r: seq<int>)
    requires rno >= 0 && routines >= 1
    decreases size - rno
    ensures forall k :: 0 <= k < |r| ==> rno <= r[k] < size
    ensures forall p, q :: 0 <= p < q < |r| ==> r[p] < r[q]
    ensures forall i :: i in r <==> i < size && OnStride(i, rno, routines)
  {
    if rno >= size then []
    else
      var rest := Share(rno + routines, routines, size);
      forall i ensures OnStride(i, rno, routines) <==> i == rno || OnStride(i, rno + routines, routines) {
        StrideStep(i, rno, routines);
      }
      [rno] + rest
  }

  /** For a worker number below `routines`, being on its stride from a non-negative
      index means having its number as residue. */
  lemma ResidueOnStride(i: int, rno: int, m: int)
    requires 0 <= i && 0 <= rno < m
    ensures OnStride(i, rno, m) <==> i % m == rno
  {
    if i % m == rno {
      assert i == (i / m) * m + rno;
      MulMonotone(i / m, 0, m);
      DivModUnique(i - rno, m, i / m, 0);
    }
    if OnStride(i, rno, m) {
      var q := (i - rno) / m;
      assert i - rno == q * m + 0;
      DivModUnique(i, m, q, rno);
    }
  }

  /** Worker `rno` of `routines` visits exactly the indices in [0, size) whose residue
      modulo `routines` is `rno`. */
  lemma ShareMembership(rno: int, routines: int, size: int, i: int)
    requires 0 <= rno < routines
    ensures i in Share(rno, routines, size) <==> 0 <= i < size && i % routines == rno
  {
    if 0 <= i {
      ResidueOnStride(i, rno, routines);
    }
  }

  /** No index is visited by two different workers. */
  lemma SharesDisjoint(a: int, b: int, routines: int, size: int, i: int)
    requires 0 <= a < routines && 0 <= b < routines && a != b
    ensures !(i in Share(a, routines, size) && i in Share(b, routines, size))
  {
    ShareMembership(a, routines, size, i);
    ShareMembership(b, routines, size, i);
  }

  /** Every index in [0, size) is visited by exactly one worker, number `i % routines`,
      and only once by it. */
  lemma ExactlyOneWorker(routines: int, size: int, i: int)
    requires routines >= 1 && 0 <= i < size
    ensures (set w | 0 <= w < routines && i in Share(w, routines, size)) == {i % routines}
    ensures multiset(Share(i % routines, routines, size))[i] == 1
  {
    forall w | 0 <= w < routines
      ensures i in Share(w, routines, size) <==> w == i % routines
    {
      ShareMembership(w, routines, size, i);
    }
    var s := Share(i % routines, routines, size);
    ShareMembership(i % routines, routines, size, i);
    var k :| 0 <= k < |s| && s[k] == i;
    NoDuplicates(s, k);
  }

  /** In a strictly increasing sequence an element occurs once. */
  lemma {:induction false} NoDuplicates(s: seq<int>, k: int)
    requires forall p, q :: 0 <= p < q < |s| ==> s[p] < s[q]
    requires 0 <= k < |s|
    ensures multiset(s)[s[k]] == 1
  {
    var init := s[..|s| - 1];
    assert s == init + [s[|s| - 1]];
    if k == |s| - 1 {
      assert s[k] !in init;
    } else {
      NoDuplicates(init, k);
    }
  }
}

=== FILE: realarith.dfy ===
/** Facts about products and quotients of reals that the solver does not find unaided. */
module RealArith {

  /** A square is non-negative, and positive away from zero. */
  lemma SquarePositive(x: real)
    ensures x * x >= 0.0
    ensures x != 0.0 ==> x * x > 0.0
  {
    if x > 0.0 {
      MulPositive(x, x);
    } else if x < 0.0 {
      var y := -x;
      MulPositive(y, y);
      assert y * y == x * x;
    }
  }

  lemma MulPositive(a: real, b: real)
    requires a > 0.0 && b > 0.0
    ensures a * b > 0.0
  {
  }

  /** Squaring is monotone on the non-negative reals, strictly so on strict inequalities. */
  lemma SquareMonotone(x: real, y: real)
    requires 0.0 <= x <= y
    ensures x * x <= y * y
    ensures x < y ==> x * x < y * y
  {
    var d := y - x;
    assert y * y == x * x + d * (x + y);
    if x < y {
      MulPositive(d, x + y);
    } else {
      assert d == 0.0;
    }
  }

  lemma QuotientTimesDivisor(n: real, d: real)
    requires d != 0.0
    ensures (n / d) * d == n
  {
  }

  /** A quotient by a positive divisor of a numerator in [0, m·d] lies in [0, m]. */
  lemma QuotientBound(n: real, d: real, m: real)
    requires d > 0.0 && 0.0 <= n <= m * d
    ensures 0.0 <= n / d <= m
  {
    var v := n / d;
    QuotientTimesDivisor(n, d);
    SignOfProduct(v, d);
    assert (m - v) * d == m * d - v * d;
    SignOfProduct(m - v, d);
  }

  /** Multiplying by a positive number keeps the sign. */
  lemma SignOfProduct(x: real, d: real)
    requires d > 0.0
    ensures x * d >= 0.0 ==> x >= 0.0
    ensures x * d > 0.0 ==> x > 0.0
  {
    if x < 0.0 {
      MulPositive(-x, d);
      assert (-x) * d == -(x * d);
    } else if x == 0.0 {
      assert x * d == 0.0;
    }
  }

  /** A product with a non-zero factor is zero only when the other factor is. */
  lemma CancelFactor(x: real, d: real)
    requires d != 0.0 && x * d == 0.0
    ensures x == 0.0
  {
    assert x == (x * d) / d;
  }

  /** Dividing a sum is summing the quotients. */
  lemma DivAdd(a: real, b: real, d: real)
    requires d != 0.0
    ensures a / d + b / d == (a + b) / d
  {
  }

  /** n copies of x divided by n give x back. */
  lemma DivScaled(x: real, n: real)
    requires n != 0.0
    ensures (x * n) / n == x
  {
  }

  /** Quotients by one divisor combine linearly. */
  lemma DivLinear(x: real, y: real, a: real, b: real, d: real)
    requires d != 0.0
    ensures (x / d) * a - (y / d) * b == (x * a - y * b) / d
    ensures (x / d) * b + (y / d) * a == (x * b + y * a) / d
  {
  }

  /** The numerators of (a + bi)(p + qi) / (p + qi) are a and b times p² + q². */
  lemma MulThenDivNumerators(a: real, b: real, p: real, q: real)
    ensures (a * p - b * q) * p + (a * q + b * p) * q == a * (p * p + q * q)
    ensures (a * q + b * p) * p - (a * p - b * q) * q == b * (p * p + q * q)
  {
  }

  /** The numerators of ((a + bi) / (p + qi))(p + qi) are a and b times p² + q². */
  lemma DivThenMulNumerators(a: real, b: real, p: real, q: real)
    ensures (a * p + b * q) * p - (b * p - a * q) * q == a * (p * p + q * q)
    ensures (a * p + b * q) * q + (b * p - a * q) * p == b * (p * p + q * q)
  {
  }

  /** Componentwise, (a + bi)(p + qi) divided by p + qi is a + bi again. */
  lemma MulThenDiv(a: real, b: real, p: real, q: real)
    requires p * p + q * q != 0.0
    ensures ((a * p - b * q) * p + (a * q + b * p) * q) / (p * p + q * q) == a
    ensures ((a * q + b * p) * p - (a * p - b * q) * q) / (p * p + q * q) == b
  {
    MulThenDivNumerators(a, b, p, q);
    DivScaled(a, p * p + q * q);
    DivScaled(b, p * p + q * q);
  }

  /** Componentwise, (a + bi) divided by p + qi and multiplied back is a + bi again. */
  lemma DivThenMul(a: real, b: real, p: real, q: real)
    requires p * p + q * q != 0.0
    ensures ((a * p + b * q) / (p * p + q * q)) * p - ((b * p - a * q) / (p * p + q * q)) * q == a
    ensures ((a * p + b * q) / (p * p + q * q)) * q + ((b * p - a * q) / (p * p + q * q)) * p == b
  {
    var n := p * p + q * q;
    DivLinear(a * p + b * q, b * p - a * q, p, q, n);
    DivThenMulNumerators(a, b, p, q);
    DivScaled(a, n);
    DivScaled(b, n);
  }
}

=== FILE: registry.dfy ===
/** The lib package's fractal registry: a list of descriptors searched by lower-cased
    name, the colour-scheme lookup that ignores case on both sides, and the point
    function a successful lookup produces. */
module Registry {
  import opened Wrappers
  import opened Text
  import opened Search
  import opened ComplexNumbers
  import opened Colors
  import opened Escape

  /** A `colorScheme` entry: a display name and the colour function it selects. */
  datatype ColorScheme = ColorScheme(name: string, fn: ColorFn)

  /** A `Fractal` descriptor; `kind` stands for the closure in its `Fn` field. */
  datatype Fractal = Fractal(
    name: string, description: string, constants: int,
    colorSchemes: seq<ColorScheme>, kind: Kind)

  /** The three ways resolution can fail, in the order they are checked. */
  datatype ResolveError = InvalidFractal | InvalidConstants | InvalidColor

  /** A resolved point function: the recurrence, the colour function and the
      constants it closes over. */
  datatype PointFunc = PointFunc(kind: Kind, color: ColorFn, constants: seq<real>)

  /** The lib's `Fractals` table. `defaultColors` and the burning ship's two scheme
      values are defined elsewhere in the lib package, so they are parameters. The
      burning ship lists its greyscale scheme twice, as the source does. */
  function LibFractals(defaultColors: seq<ColorScheme>, shipGrey: ColorScheme,
                       shipWhacky: ColorScheme): seq<Fractal>
  {
    [ Fractal("mandelbrot", "Classic mandelbrot function.", 0, defaultColors, Mandelbrot),
      Fractal("julia",
              "Classic Julia function.\nThe two constants are the real and imaginary components of C.",
              2, defaultColors, Julia),
      Fractal("burningship", "Classic burning ship function.", 0,
              [shipGrey, shipGrey, shipWhacky], BurningShip) ]
  }

  function SchemeNames(schemes: seq<ColorScheme>): (names: seq<string>)
    ensures |names| == |schemes|
    ensures forall i :: 0 <= i < |schemes| ==> names[i] == schemes[i].name
  {
    seq(|schemes|, i requires 0 <= i < |schemes| => schemes[i].name)
  }

  /** `Fractal.String()`: the help-screen text of a descriptor. */
  function Describe(f: Fractal): string {
    f.name + "\n" + f.description + "\nColor Schemes: " + Join(SchemeNames(f.colorSchemes), ", ")
  }

  /** The help text starts with the name on its own line, and its length is the name,
      the description, 17 characters of fixed text, the scheme names and two
      characters of separator between each consecutive pair of names. */
  lemma DescribeShape(f: Fractal)
    ensures Describe(f)[..|f.name| + 1] == f.name + "\n"
    ensures |f.colorSchemes| == 0 ==> |Describe(f)| == |f.name| + |f.description| + 17
    ensures |f.colorSchemes| >= 1 ==>
      |Describe(f)| == |f.name| + |f.description| + 17
        + TotalLength(SchemeNames(f.colorSchemes)) + 2 * (|f.colorSchemes| - 1)
  {
    JoinLength(SchemeNames(f.colorSchemes), ", ");
  }

  /** `GetFractal`: the first descriptor whose name equals the lower-cased argument. */
  function GetFractal(fractals: seq<Fractal>, fractalName: string): (r: Result<Fractal, ResolveError>)
    ensures r.Success? <==> exists i :: 0 <= i < |fractals| && fractals[i].name == Lower(fractalName)
    ensures r.Success? ==>
      exists i :: (0 <= i < |fractals| && r.value == fractals[i]
        && r.value.name == Lower(fractalName)
        && forall j :: 0 <= j < i ==> fractals[j].name != Lower(fractalName))
    ensures r.Failure? ==> r.error == InvalidFractal
  {
    FindFractal(fractals, Lower(fractalName))
  }

  /** The search behind `GetFractal`, given the already lower-cased name. */
  function FindFractal(fractals: seq<Fractal>, lowered: string): Result<Fractal, ResolveError> {
    match FindFirst(fractals, (f: Fractal) => f.name == lowered)
    case None => Failure(InvalidFractal)
    case Some(i) => Success(fractals[i])
  }

  /** Scheme names are compared with both sides lower-cased. */
  predicate SchemeMatches(cs: ColorScheme, colorName: string) {
    Lower(cs.name) == Lower(colorName)
  }

  /** The scheme search behind `GetPointFunc`, given the already lower-cased colour name. */
  function FindScheme(schemes: seq<ColorScheme>, lowered: string): Option<nat> {
    FindFirst(schemes, (cs: ColorScheme) => Lower(cs.name) == lowered)
  }

  /** `GetPointFunc`: an unknown fractal is rejected first, then a wrong number of
      constants, then a colour name no scheme of the fractal matches; otherwise the
      first matching scheme's colour function is bound. */
  function GetPointFunc(fractals: seq<Fractal>, fractalName: string, colorName: string,
                        constants: seq<real>): (r: Result<PointFunc, ResolveError>)
    ensures GetFractal(fractals, fractalName).Failure? ==> r == Failure(InvalidFractal)
    ensures GetFractal(fractals, fractalName).Success?
      && |constants| != GetFractal(fractals, fractalName).value.constants
      ==> r == Failure(InvalidConstants)
    ensures r == Failure(InvalidColor) <==>
      GetFractal(fractals, fractalName).Success?
      && |constants| == GetFractal(fractals, fractalName).value.constants
      && forall j :: 0 <= j < |GetFractal(fractals, fractalName).value.colorSchemes| ==>
           !SchemeMatches(GetFractal(fractals, fractalName).value.colorSchemes[j], colorName)
    ensures r.Success? <==>
      GetFractal(fractals, fractalName).Success?
      && |constants| == GetFractal(fractals, fractalName).value.constants
      && exists j :: 0 <= j < |GetFractal(fractals, fractalName).value.colorSchemes|
           && SchemeMatches(GetFractal(fractals, fractalName).value.colorSchemes[j], colorName)
    ensures r.Success? ==>
      var f := GetFractal(fractals, fractalName).value;
      |constants| == f.constants
      && exists j :: (0 <= j < |f.colorSchemes| && SchemeMatches(f.colorSchemes[j], colorName)
           && (forall i :: 0 <= i < j ==> !SchemeMatches(f.colorSchemes[i], colorName))
           && r.value == PointFunc(f.kind, f.colorSchemes[j].fn, constants))
  {
    match GetFractal(fractals, fractalName)
    case Failure(e) => Failure(e)
    case Success(f) =>
      if |constants| != f.constants then Failure(InvalidConstants)
      else
        match FindScheme(f.colorSchemes, Lower(colorName))
        case None => Failure(InvalidColor)
        case Some(j) => Success(PointFunc(f.kind, f.colorSchemes[j].fn, constants))
  }

  /** Resolution ignores the case of both names. */
  lemma GetPointFuncIgnoresCase(fractals: seq<Fractal>, fractalName: string, colorName: string,
                                constants: seq<real>)
    ensures GetPointFunc(fractals, fractalName, colorName, constants)
         == GetPointFunc(fractals, Lower(fractalName), Lower(colorName), constants)
  {
    LowerIdempotent(fractalName);
    LowerIdempotent(colorName);
  }

  /** A point function can be evaluated when it holds the constants its recurrence reads. */
  predicate WellFormed(pf: PointFunc) {
    pf.kind == Julia ==> |pf.constants| >= 2
  }

  /** Resolution against the lib table binds the recurrence the name selects, with
      exactly the constants it needs: two for julia, none otherwise. */
  lemma LibResolution(defaultColors: seq<ColorScheme>, shipGrey: ColorScheme, shipWhacky: ColorScheme,
                      fractalName: string, colorName: string, constants: seq<real>)
    ensures var r := GetPointFunc(LibFractals(defaultColors, shipGrey, shipWhacky), fractalName, colorName, constants);
      r.Success? ==>
        (WellFormed(r.value)
         && (r.value.kind == Julia <==> Lower(fractalName) == "julia")
         && (r.value.kind == Mandelbrot <==> Lower(fractalName) == "mandelbrot")
         && (r.value.kind == BurningShip <==> Lower(fractalName) == "burningship")
         && |constants| == (if r.value.kind == Julia then 2 else 0))
  {
    var fs := LibFractals(defaultColors, shipGrey, shipWhacky);
    assert fs[0].name == "mandelbrot" && fs[1].name == "julia" && fs[2].name == "burningship";
  }

  /** julia with a single constant is refused for its constant count, whatever the colour. */
  lemma LibJuliaNeedsTwoConstants(defaultColors: seq<ColorScheme>, shipGrey: ColorScheme,
                                  shipWhacky: ColorScheme, colorName: string, k: real)
    ensures GetPointFunc(LibFractals(defaultColors, shipGrey, shipWhacky), "Julia", colorName, [k])
         == Failure(InvalidConstants)
  {
    var fs := LibFractals(defaultColors, shipGrey, shipWhacky);
    assert Lower("Julia") == "julia";
    assert fs[1].name == "julia";
  }

  /** The point function of a resolved descriptor: run its loop, then its colour. */
  function Evaluate(pf: PointFunc, x: real, y: real, cap: int): (r: Outcome)
    requires WellFormed(pf)
    ensures 0 <= r.iterations && (r.iterations == 0 || r.iterations <= cap)
  {
    match pf.kind
    case Mandelbrot => MandelbrotPoint(x, y, cap)
    case Julia => JuliaPoint(pf.constants, x, y, cap)
    case BurningShip => BurningShipPoint(x, y, cap)
  }

  /** The colour a resolved point function gives the plane point (x, y). With a
      positive cap and one of the modelled schemes the colour always exists and every
      channel lies in [0, 255]. */
  function PointColour(pf: PointFunc, x: real, y: real, cap: int,
                       other: (ColorFn, int, int, Complex, Complex) -> Option<Rgba>): (r: Option<Rgba>)
    requires WellFormed(pf)
    ensures IsExact(pf.color) && cap >= 1 ==> r.Some? && InRange(r.value) && r.value.a == 255.0
  {
    var e := Evaluate(pf, x, y, cap);
    Paint(pf.color, e.iterations, cap, e.z, e.c, other)
  }

  /** The resolved point function as the generator calls it: `(x, y, cap)` to the four
      channels. Where the scheme has no colour (simple greyscale at a zero cap), Go
      returns NaN channels with alpha 255; the model keeps the alpha and puts 0 in
      place of each NaN. */
  function AsPointFn(pf: PointFunc, other: (ColorFn, int, int, Complex, Complex) -> Option<Rgba>): (fn: (real, real, int) -> Rgba)
    requires WellFormed(pf)
    ensures forall x, y, k :: PointColour(pf, x, y, k, other).Some? ==> fn(x, y, k) == PointColour(pf, x, y, k, other).value
  {
    (x: real, y: real, k: int) =>
      match PointColour(pf, x, y, k, other)
      case Some(c) => c
      case None => Rgba(0.0, 0.0, 0.0, 255.0)
  }

  /** With one of the four modelled schemes the point function is opaque at every cap,
      zero included, as Go's `return col, col, col, 255` is. */
  lemma ExactSchemesOpaque(pf: PointFunc, other: (ColorFn, int, int, Complex, Complex) -> Option<Rgba>,
                           x: real, y: real, k: int)
    requires WellFormed(pf) && IsExact(pf.color)
    ensures AsPointFn(pf, other)(x, y, k).a == 255.0
  {
    var e := Evaluate(pf, x, y, k);
    match Paint(pf.color, e.iterations, k, e.z, e.c, other)
    case None =>
    case Some(c) =>
      assert c.a == 255.0;
  }
}

=== FILE: render.dfy ===
/** The whole render: an image buffer of width·height 8-bit colours, written by
    workers 0 .. routines−1 in turn, each over its own strided share of pixel indices.
    The goroutines run concurrently in the source; since their shares are disjoint
    the order in which they write does not matter, so they are applied one after
    another. `outOfRange` is the platform's `uint8` conversion of a float at or below
    −1 or at or above 256, which Go leaves to the implementation. */
module Render {
  import opened Colors
  import opened Generator
  import opened Partition
  import opened IntArith
  import opened ImageColor
  import opened Wrappers
  import opened ComplexNumbers
  import Registry

  /** A fresh `image.NRGBA`: every pixel zero. */
  function Blank(size: nat): (img: seq<Rgba8>)
    ensures |img| == size
    ensures forall i :: 0 <= i < size ==> img[i] == Clear8
  {
    seq(size, _ => Clear8)
  }

  /** What `Set` leaves at linear pixel `i`: the averaged colour converted to a
      `color.RGBA` of bytes, then to the image's `color.NRGBA`. */
  function StoredPixel(g: Generator, fn: PointFn, outOfRange: real -> int, i: int): (r: Rgba8)
    requires Valid(g) && 0 <= i
    ensures IsBytes(r)
  {
    ToNrgba(ToRgba8(PixelColour(g, fn, i), outOfRange))
  }

  /** For opaque point functions with channels in [0, 255] the stored pixel is the
      truncated average, opaque, whatever the platform does out of range. */
  lemma StoredOpaquePixel(g: Generator, fn: PointFn, outOfRange: real -> int, i: int)
    requires Valid(g) && 0 <= i
    requires forall x, y :: InRange(fn(x, y, g.iterationCap)) && fn(x, y, g.iterationCap).a == 255.0
    ensures var c := PixelColour(g, fn, i);
      StoredPixel(g, fn, outOfRange, i) == Rgba8(c.r.Floor, c.g.Floor, c.b.Floor, 255)
  {
    PixelColourInRange(g, fn, i);
    PixelColourOpaque(g, fn, i);
    assert (255.0).Floor == 255;
  }

  /** The colour `genRoutine` computes for each linear pixel index. */
  function Pixels(g: Generator, fn: PointFn, outOfRange: real -> int): nat -> Rgba8
    requires Valid(g)
  {
    (i: nat) => StoredPixel(g, fn, outOfRange, i)
  }

  /** A resolved point function with one of the modelled schemes and a positive cap
      is stored as its truncated average, opaque. */
  lemma ResolvedSchemeStoresTruncatedAverage(g: Generator, pf: Registry.PointFunc,
      other: (ColorFn, int, int, Complex, Complex) -> Option<Rgba>,
      outOfRange: real -> int, i: int)
    requires Valid(g) && 0 <= i && g.iterationCap >= 1
    requires Registry.WellFormed(pf) && IsExact(pf.color)
    ensures var fn := Registry.AsPointFn(pf, other); var c := PixelColour(g, fn, i);
      StoredPixel(g, fn, outOfRange, i) == Rgba8(c.r.Floor, c.g.Floor, c.b.Floor, 255)
  {
    var fn := Registry.AsPointFn(pf, other);
    forall x, y ensures InRange(fn(x, y, g.iterationCap)) && fn(x, y, g.iterationCap).a == 255.0 {
      assert Registry.PointColour(pf, x, y, g.iterationCap, other).Some?;
    }
    StoredOpaquePixel(g, fn, outOfRange, i);
  }

  /** With one of the modelled schemes every stored pixel is opaque, whatever the cap. */
  lemma ResolvedSchemeStoresOpaque(g: Generator, pf: Registry.PointFunc,
      other: (ColorFn, int, int, Complex, Complex) -> Option<Rgba>,
      outOfRange: real -> int, i: int)
    requires Valid(g) && 0 <= i
    requires Registry.WellFormed(pf) && IsExact(pf.color)
    ensures StoredPixel(g, Registry.AsPointFn(pf, other), outOfRange, i).a == 255
  {
    var fn := Registry.AsPointFn(pf, other);
    forall x, y ensures fn(x, y, g.iterationCap).a == 255.0 {
      Registry.ExactSchemesOpaque(pf, other, x, y, g.iterationCap);
    }
    PixelColourOpaque(g, fn, i);
    assert (255.0).Floor == 255;
  }

  /** Writes the colour `px` gives every index in `idxs` into `img`. */
  function WriteAll(px: nat -> Rgba8, img: seq<Rgba8>, idxs: seq<int>): (r: seq<Rgba8>)
    requires forall k :: 0 <= k < |idxs| ==> 0 <= idxs[k] < |img|
    ensures |r| == |img|
    ensures forall i: nat :: i < |img| && i in idxs ==> r[i] == px(i)
    ensures forall i :: 0 <= i < |img| && i !in idxs ==> r[i] == img[i]
  {
    if |idxs| == 0 then img
    else
      var i := idxs[|idxs| - 1];
      var prev := WriteAll(px, img, idxs[..|idxs| - 1]);
      assert forall j :: j in idxs <==> j in idxs[..|idxs| - 1] || j == i by {
        assert idxs == idxs[..|idxs| - 1] + [i];
      }
      prev[i := px(i)]
  }

  /** `genRoutine(rno)`: of `routines` workers, worker `rno` writes its share of the
      image and nothing else. */
  function Worker(px: nat -> Rgba8, routines: int, rno: int, img: seq<Rgba8>): (r: seq<Rgba8>)
    requires 0 <= rno < routines
    ensures |r| == |img|
    ensures forall i: nat :: i < |img| && i % routines == rno ==> r[i] == px(i)
    ensures forall i :: 0 <= i < |img| && i % routines != rno ==> r[i] == img[i]
  {
    var share := Share(rno, routines, |img|);
    forall i | 0 <= i < |img| ensures i in share <==> i % routines == rno {
      ShareMembership(rno, routines, |img|, i);
    }
    WriteAll(px, img, share)
  }

  /** The image of `size` pixels after workers 0 .. k−1 have run. */
  function RunWorkers(px: nat -> Rgba8, routines: int, size: nat, k: int): (img: seq<Rgba8>)
    requires 0 <= k <= routines
    ensures |img| == size
    decreases k
  {
    if k == 0 then Blank(size)
    else Worker(px, routines, k - 1, RunWorkers(px, routines, size, k - 1))
  }

  /** After workers 0 .. k−1 exactly the pixels whose worker number is below k are painted. */
  lemma {:induction false} RunWorkersPaints(px: nat -> Rgba8, routines: int, size: nat, k: int)
    requires 0 <= k <= routines
    ensures forall i: nat :: i < size ==>
      RunWorkers(px, routines, size, k)[i] == if k > 0 && i % routines < k then px(i) else Clear8
    decreases k
  {
    if k > 0 {
      RunWorkersPaints(px, routines, size, k - 1);
    }
  }

  /** `Generate`: all workers run, then the image is handed over. With at least one
      worker every pixel receives its stored colour; with none the image stays blank. */
  function Generate(g: Generator, fn: PointFn, outOfRange: real -> int): (img: seq<Rgba8>)
    requires Valid(g)
    ensures |img| == g.width * g.height
    ensures g.routines >= 1 ==>
      forall i :: 0 <= i < |img| ==> img[i] == StoredPixel(g, fn, outOfRange, i)
    ensures g.routines == 0 ==> img == Blank(g.width * g.height)
  {
    RunWorkersPaints(Pixels(g, fn, outOfRange), g.routines, g.width * g.height, g.routines);
    RunWorkers(Pixels(g, fn, outOfRange), g.routines, g.width * g.height, g.routines)
  }

  /** The image does not depend on the number of workers, as long as there is one. */
  lemma WorkerCountIrrelevant(g: Generator, fn: PointFn, outOfRange: real -> int, routines: int)
    requires Valid(g) && g.routines >= 1 && routines >= 1
    ensures Generate(g, fn, outOfRange) == Generate(g.(routines := routines), fn, outOfRange)
  {
    var h := g.(routines := routines);
    forall i | 0 <= i < g.width * g.height
      ensures PixelColour(g, fn, i) == PixelColour(h, fn, i)
    {
      SameSamples(g, routines, fn, i % g.width, i / g.width);
    }
  }

  /** The samples of a pixel do not depend on the worker count. */
  lemma SameSamples(g: Generator, routines: int, fn: PointFn, xPix: int, yPix: int)
    requires Valid(g) && routines >= 0
    ensures SampleColours(g, fn, xPix, yPix) == SampleColours(g.(routines := routines), fn, xPix, yPix)
  {
    var h := g.(routines := routines);
    var a := SampleColours(g, fn, xPix, yPix);
    var b := SampleColours(h, fn, xPix, yPix);
    forall j | 0 <= j < |a| ensures a[j] == b[j] {
      var n := g.samples;
      RowMajor(j, n, n);
      SampleAtIgnoresRoutines(g, routines, fn, xPix, yPix, j / n, j % n);
    }
  }

  lemma SampleAtIgnoresRoutines(g: Generator, routines: int, fn: PointFn, xPix: int, yPix: int, xs: int, ys: int)
    requires Valid(g) && 0 <= xs < g.samples && 0 <= ys < g.samples
    ensures SampleAt(g, fn, xPix, yPix, xs, ys) == SampleAt(g.(routines := routines), fn, xPix, yPix, xs, ys)
  {
    var h := g.(routines := routines);
    assert PixelStep(g) == PixelStep(h);
    assert h.width == g.width && h.height == g.height && h.xPos == g.xPos && h.yPos == g.yPos;
    assert h.samples == g.samples && h.iterationCap == g.iterationCap;
  }
}

=== FILE: rootregistry.dfy ===
/** The first-generation registry: a map from exact fractal names to descriptors whose
    colour functions are themselves a map from exact names, including a "default" key.
    Failures end the program there; here they are the same error values the lib
    registry returns. */
module RootRegistry {
  import opened Wrappers
  import opened Text
  import opened Colors
  import opened Escape
  import opened Registry

  /** One entry of the `fractals` map. */
  datatype RootFractal = RootFractal(
    description: string, constants: int, kind: Kind, colourFuncs: map<string, ColorFn>)

  /** The colouring functions offered for the mandelbrot and julia sets. */
  function FullColourFuncs(): map<string, ColorFn> {
    map["default" := Simple, "simplegreyscale" := Simple, "whackygreyscale" := Whacky,
        "zgreyscale" := ZGrey, "smoothgreyscale" := SmoothGrey,
        "smoothcolour" := SmoothColour, "smoothcolour2" := SmoothColour2]
  }

  /** The colouring functions offered for the burning ship: only the ship variants. */
  function ShipColourFuncs(): map<string, ColorFn> {
    map["default" := SimpleShip, "simplegreyscale" := SimpleShip, "whackygreyscale" := WhackyShip]
  }

  function RootFractals(): map<string, RootFractal> {
    map["mandelbrot" := RootFractal("Classic mandelbrot function.", 0, Mandelbrot, FullColourFuncs()),
        "julia" := RootFractal(
          "Classic Julia function.\nThe two constants are the real and imaginary components of C.",
          2, Julia, FullColourFuncs()),
        "burningship" := RootFractal("Classic burning ship function.", 0, BurningShip, ShipColourFuncs())]
  }

  /** `getFractalFunction`: exact-key lookup of the fractal, then the constant count,
      then exact-key lookup of the colouring function. */
  function GetFractalFunction(fractalName: string, colourName: string, constants: seq<real>)
    : (r: Result<PointFunc, ResolveError>)
    ensures fractalName !in RootFractals() ==> r == Failure(InvalidFractal)
    ensures fractalName in RootFractals() && |constants| != RootFractals()[fractalName].constants
      ==> r == Failure(InvalidConstants)
    ensures r == Failure(InvalidColor) <==>
      fractalName in RootFractals() && |constants| == RootFractals()[fractalName].constants
      && colourName !in RootFractals()[fractalName].colourFuncs
    ensures r.Success? <==>
      fractalName in RootFractals() && |constants| == RootFractals()[fractalName].constants
      && colourName in RootFractals()[fractalName].colourFuncs
    ensures r.Success? ==>
      r.value == PointFunc(RootFractals()[fractalName].kind,
                           RootFractals()[fractalName].colourFuncs[colourName], constants)
  {
    var fractals := RootFractals();
    if fractalName !in fractals then Failure(InvalidFractal)
    else
      var f := fractals[fractalName];
      if |constants| != f.constants then Failure(InvalidConstants)
      else if colourName !in f.colourFuncs then Failure(InvalidColor)
      else Success(PointFunc(f.kind, f.colourFuncs[colourName], constants))
  }

  /** A successful lookup yields a point function that can be evaluated, bound to the
      recurrence the name selects, with two constants for julia and none otherwise. */
  lemma RootResolution(fractalName: string, colourName: string, constants: seq<real>)
    ensures var r := GetFractalFunction(fractalName, colourName, constants);
      r.Success? ==>
        (WellFormed(r.value)
         && (r.value.kind == Julia <==> fractalName == "julia")
         && (r.value.kind == Mandelbrot <==> fractalName == "mandelbrot")
         && (r.value.kind == BurningShip <==> fractalName == "burningship")
         && |constants| == (if r.value.kind == Julia then 2 else 0))
  {
  }

  /** "default" selects simple greyscale for every fractal, in its ship form for the
      burning ship. */
  lemma DefaultIsSimpleGreyscale(fractalName: string, constants: seq<real>)
    requires fractalName in RootFractals()
    requires |constants| == RootFractals()[fractalName].constants
    ensures GetFractalFunction(fractalName, "default", constants)
         == GetFractalFunction(fractalName, "simplegreyscale", constants)
    ensures GetFractalFunction(fractalName, "default", constants).Success?
    ensures GetFractalFunction(fractalName, "default", constants).value.color
         == (if fractalName == "burningship" then SimpleShip else Simple)
  {
  }

  /** The burning ship only accepts the colouring functions that take no constant,
      and never binds one that needs it. */
  lemma ShipSchemes(colourName: string)
    ensures GetFractalFunction("burningship", colourName, []).Success?
        <==> colourName in {"default", "simplegreyscale", "whackygreyscale"}
    ensures GetFractalFunction("burningship", colourName, []).Success?
        ==> GetFractalFunction("burningship", colourName, []).value.color in {SimpleShip, WhackyShip}
  {
  }

  /** Every fractal offers the two exactly-modelled greyscale schemes, so with the
      right constants and a positive cap those names always give an in-range colour. */
  lemma ExactSchemesAlwaysColour(fractalName: string, colourName: string, constants: seq<real>,
                                 x: real, y: real, cap: int,
                                 other: (ColorFn, int, int, ComplexNumbers.Complex, ComplexNumbers.Complex) -> Option<Rgba>)
    requires fractalName in RootFractals()
    requires |constants| == RootFractals()[fractalName].constants
    requires colourName in {"default", "simplegreyscale", "whackygreyscale"}
    requires cap >= 1
    ensures GetFractalFunction(fractalName, colourName, constants).Success?
    ensures var pf := GetFractalFunction(fractalName, colourName, constants).value;
      WellFormed(pf) && PointColour(pf, x, y, cap, other).Some?
      && InRange(PointColour(pf, x, y, cap, other).value)
  {
    var f := RootFractals()[fractalName];
    assert f.colourFuncs == FullColourFuncs() || f.colourFuncs == ShipColourFuncs();
    assert colourName in f.colourFuncs && IsExact(f.colourFuncs[colourName]);
    RootResolution(fractalName, colourName, constants);
  }

  /** The map keys are exact: a capitalised name is not found. The caller lower-cases
      the names first. */
  lemma ExactKeys(colourName: string, constants: seq<real>)
    ensures GetFractalFunction("Mandelbrot", colourName, constants) == Failure(InvalidFractal)
    ensures GetFractalFunction("mandelbrot", "Default", []) == Failure(InvalidColor)
  {
  }

  /** The two generations know the same fractals under the same names, with the same
      description, constant count and recurrence. */
  lemma GenerationsAgree(defaultColors: seq<ColorScheme>, shipGrey: ColorScheme,
                         shipWhacky: ColorScheme, name: string)
    ensures var lib := GetFractal(LibFractals(defaultColors, shipGrey, shipWhacky), name);
      (lib.Success? <==> Lower(name) in RootFractals())
      && (lib.Success? ==>
            lib.value.description == RootFractals()[Lower(name)].description
            && lib.value.constants == RootFractals()[Lower(name)].constants
            && lib.value.kind == RootFractals()[Lower(name)].kind)
  {
    var fs := LibFractals(defaultColors, shipGrey, shipWhacky);
    assert fs[0].name == "mandelbrot" && fs[1].name == "julia" && fs[2].name == "burningship";
  }
}

=== FILE: search.dfy ===
/** Linear search, as a Go `for ... range` loop that stops at the first `break`. */
module Search {
  import opened Wrappers

  /** Index of the first element of `s` satisfying `p`, or None when there is none. */
  function FindFirst<T>(s: seq<T>, p: T -> bool): (r: Option<nat>)
    ensures r.Some? ==> r.value < |s| && p(s[r.value])
    ensures r.Some? ==> forall j :: 0 <= j < r.value ==> !p(s[j])
    ensures r.None? <==> forall j :: 0 <= j < |s| ==> !p(s[j])
  {
    if |s| == 0 then None
    else if p(s[0]) then Some(0)
    else
      match FindFirst(s[1..], p)
      case None => None
      case Some(k) => Some(k + 1)
  }
}

=== FILE: text.dfy ===
/** String helpers the registry relies on: lower-casing and joining. */
module Text {

  /** True for the ASCII capital letters, the only characters lower-casing changes here. */
  predicate IsUpperChar(ch: char) {
    'A' <= ch <= 'Z'
  }

  /** A string with no capital letter left in it. */
  predicate IsLowerCase(s: string) {
    forall i :: 0 <= i < |s| ==> !IsUpperChar(s[i])
  }

  function LowerChar(ch: char): char {
    if IsUpperChar(ch) then (ch as int + 32) as char else ch
  }

  /** Lower-casing (the ASCII part of Go's `strings.ToLower`). */
  function Lower(s: string): (r: string)
    ensures |r| == |s|
    ensures IsLowerCase(r)
    ensures forall i :: 0 <= i < |s| && !IsUpperChar(s[i]) ==> r[i] == s[i]
    ensures forall i :: 0 <= i < |s| && IsUpperChar(s[i]) ==> r[i] as int == s[i] as int + 32
  {
    seq(|s|, i requires 0 <= i < |s| => LowerChar(s[i]))
  }

  /** A string is its own lower-case form exactly when it has no capital letter. */
  lemma LowerFixedPoint(s: string)
    ensures Lower(s) == s <==> IsLowerCase(s)
  {
    if IsLowerCase(s) {
      assert forall i :: 0 <= i < |s| ==> Lower(s)[i] == s[i];
    }
  }

  /** Lower-casing twice is lower-casing once. */
  lemma LowerIdempotent(s: string)
    ensures Lower(Lower(s)) == Lower(s)
  {
    LowerFixedPoint(Lower(s));
  }

  /** Go's `strings.Join`: the parts with `sep` between consecutive ones. */
  function Join(parts: seq<string>, sep: string): string {
    if |parts| == 0 then ""
    else if |parts| == 1 then parts[0]
    else parts[0] + sep + Join(parts[1..], sep)
  }

  /** Total length of a list of strings. */
  function TotalLength(parts: seq<string>): nat {
    if |parts| == 0 then 0 else |parts[0]| + TotalLength(parts[1..])
  }

  /** Appending a part appends one separator and that part, as Go's builder-based join does. */
  lemma {:induction false} JoinSnoc(parts: seq<string>, last: string, sep: string)
    requires |parts| >= 1
    ensures Join(parts + [last], sep) == Join(parts, sep) + sep + last
  {
    if |parts| == 1 {
      assert parts + [last] == [parts[0], last];
    } else {
      assert (parts + [last])[1..] == parts[1..] + [last];
      JoinSnoc(parts[1..], last, sep);
    }
  }

  /** The joined string holds every part and one separator between each consecutive pair. */
  lemma {:induction false} JoinLength(parts: seq<string>, sep: string)
    ensures |parts| >= 1 ==> |Join(parts, sep)| == TotalLength(parts) + (|parts| - 1) * |sep|
    ensures |parts| == 0 ==> Join(parts, sep) == ""
  {
    if |parts| > 1 {
      JoinLength(parts[1..], sep);
    }
  }
}

=== FILE: wrappers.dfy ===
/** Failure-carrying return values used throughout the model. */
module Wrappers {

  /** A value that may be absent. */
  datatype Option<+T> = None | Some(value: T)

  /** Either a value or the error that replaced it. */
  datatype Result<+T, +E> = Success(value: T) | Failure(error: E)
}
